=== FILE: README.md ===
# Habilitación Precaria — client-side decision logic

This project models the client of the municipal portal that issues
provisional commercial licences ("Habilitación Precaria"; in the code a
request is an "AFAP"). It covers the React pages' decision logic and leaves
out their layout:

- **The operators' request list** (`SolicitudesPage`). It applies three
  stages to a copy of the loaded requests: a status filter, a case-insensitive
  nine-field search, and a sort by date, number or applicant name in either
  order. It also holds the per-status counters on the filter buttons, the
  sort toggle, the actions on a request card and the status badge with its
  fallback.
- **The public certificate check** (`VerificarCertificadoPage`). It gives one
  of four verdicts: NO VÁLIDO, VENCIDO, VÁLIDO or NO APROBADO. The verdict
  depends on the load error, the record's state, its expiry date and the
  current time.
- **The role tables.** The sidebar menu (`DashboardLayout`) and the route
  table with its `allowedRoles` (`App`) are modelled, and the proofs show that
  the two agree.
- **The four-step request form** (`NuevaSolicitudPage`). It covers the
  step counter clamped to 1..4, the stepper highlights, the initial field
  record and the one-field update. It also covers the submitted record, in
  which the worker and sanitary counts go through `parseInt`.
- **The smaller pages:**
  - the inspection counters and badge (`InspeccionesPage`)
  - the dashboard's recent list, its statistics and error reset (`DashboardPage`)
  - the password-confirmation gate in sign-up (`RegisterPage`)

The JavaScript semantics the pages rely on are written out in
`JsSemantics`:
- `Array.prototype.filter`
- `String.prototype.toLowerCase`, `trim` and `includes`
- `Number.prototype.toString` for integers
- decimal `parseInt`
- `||` on optional strings

Each page modelled with mutable state is a class. Its methods change the
fields, and their contracts state the new state. The certificate page's load
is the function `Certificado.AfterLoad`. The pure parts are
functions with lemmas about them. The sort is an in-place insertion sort on
an array. It is proved to give a permutation of its input that is sorted by
the comparator.

The HTTP requests, the current time, `localeCompare` and `parseFloat` are
parameters. Dates are integer timestamps in milliseconds.

## Model

| member | source | states |
|---|---|---|
| JsSemantics.Filter | src/pages/SolicitudesPage.js:110 | the kept elements all satisfy the predicate and are no more than the input |
| JsSemantics.FilterMembership | src/pages/SolicitudesPage.js:109-111 | an element is in the filtered list iff it is in the list and satisfies the predicate |
| JsSemantics.FilterIsSubsequence | src/pages/SolicitudesPage.js:106-126 | filtering only drops elements: the result is a subsequence of the input |
| JsSemantics.FilterAppend | src/pages/InspeccionesPage.js:85 | filtering a list with one more element adds that element exactly when it satisfies the predicate |
| JsSemantics.FilterOfFive | src/components/DashboardLayout.js:26 | filtering a five-entry table keeps each entry on its own, in table order |
| JsSemantics.CountIsIndexCount | src/pages/InspeccionesPage.js:85-95 | `filter(p).length` is the number of positions whose element satisfies `p`, duplicates counted |
| JsSemantics.FilterMultiplicity | src/pages/InspeccionesPage.js:85-95 | an element occurs in the filtered list as often as in the input when it satisfies the predicate, and otherwise not at all |
| JsSemantics.CountDisjointSum | src/pages/InspeccionesPage.js:85-104 | two counters over predicates that never both hold add up to at most the list length |
| JsSemantics.LowerChar | src/pages/SolicitudesPage.js:115 | an upper-case letter maps to its lower-case form, any other character to itself, and no result is upper case |
| JsSemantics.ToLowerCase | src/pages/SolicitudesPage.js:115 | lower-casing keeps the length and lower-cases each character in place |
| JsSemantics.ToLowerCaseIdempotent | src/pages/SolicitudesPage.js:115-125 | lower-casing twice is lower-casing once, so a lower-cased query against lower-cased fields is case-insensitive |
| JsSemantics.TrimStart | src/pages/SolicitudesPage.js:114 | the result is a suffix that starts with a non-whitespace character, and everything dropped is whitespace |
| JsSemantics.TrimEnd | src/pages/SolicitudesPage.js:114 | the result is a prefix that ends with a non-whitespace character, and everything dropped is whitespace |
| JsSemantics.TrimEmptyIffBlank | src/pages/SolicitudesPage.js:114 | `trim()` is empty exactly when every character is whitespace |
| JsSemantics.IncludesSound | src/pages/SolicitudesPage.js:117-125 | when `includes` answers true, the query occurs at some index |
| JsSemantics.IncludesComplete | src/pages/SolicitudesPage.js:117-125 | when the query occurs at some index, `includes` answers true |
| JsSemantics.IncludesIffSubstring | src/pages/SolicitudesPage.js:117-125 | `s.includes(q)` holds iff `q` is a substring of `s` |
| JsSemantics.NatToDigits | src/pages/SolicitudesPage.js:117 | the decimal text of a number is non-empty and all digits |
| JsSemantics.DigitsValueOfNat | src/pages/SolicitudesPage.js:117 | reading back the decimal text of a number gives the number |
| JsSemantics.DigitPrefix | src/pages/NuevaSolicitudPage.js:80-85 | the leading digits of a text: a prefix, all digits, followed by a non-digit or the end |
| JsSemantics.ParseIntText | src/pages/NuevaSolicitudPage.js:80-85 | `parseInt` of a text is NaN exactly when no digit follows the leading whitespace and sign |
| JsSemantics.ParseSigned | src/pages/NuevaSolicitudPage.js:80-85 | a signed digit run fails to parse exactly when no digit follows the sign |
| JsSemantics.ParseIntOfDigits | src/pages/NuevaSolicitudPage.js:80-85 | a run of digits parses to its decimal value |
| JsSemantics.ParseIntOfNegatedDigits | src/pages/NuevaSolicitudPage.js:80-85 | a minus sign followed by digits parses to the negated value |
| JsSemantics.ParseIntOfIntToString | src/pages/NuevaSolicitudPage.js:80-85 | `parseInt` inverts the decimal text of every integer |
| JsSemantics.ParseInt | src/pages/NuevaSolicitudPage.js:80-85 | `parseInt` of any value is a number or NaN |
| JsSemantics.ParseIntOfNum | src/pages/NuevaSolicitudPage.js:80-85 | `parseInt` of an integer is that integer |
| JsSemantics.ParseIntOfNonNumeric | src/pages/NuevaSolicitudPage.js:80-85 | `parseInt` of NaN, a boolean, `undefined` or `null` is NaN |
| JsSemantics.OrElse | src/pages/VerificarCertificadoPage.js:29 | the JavaScript `or` of an optional string and a fallback is the string when it is non-empty and the fallback otherwise |
| AfapRecord.EstadoBadge | src/pages/SolicitudesPage.js:482-506 | a known state shows its own badge; any other state shows the "Pendiente" badge |
| Solicitudes.StatusStageKeeps | src/pages/SolicitudesPage.js:109-111 | filter 'all' keeps the list; any other filter keeps exactly the records in that state, as a subsequence |
| Solicitudes.MatchesQueryIff | src/pages/SolicitudesPage.js:116-126 | a record matches iff the query is a substring of one of its nine search texts (number text, two tax ids as stored, six other texts lower-cased) |
| Solicitudes.SearchStageKeeps | src/pages/SolicitudesPage.js:114-126 | a blank query keeps the list; otherwise a record stays iff it matches the lower-cased, untrimmed query, as a subsequence |
| Solicitudes.QueryIsSubsequence | src/pages/SolicitudesPage.js:106-126 | both stages together give a subsequence of the loaded list, so "Mostrando N de M" has N <= M |
| Solicitudes.CompareAntisymmetric | src/pages/SolicitudesPage.js:130-150 | if the comparator puts a after b, it puts b before a, for every column and order |
| Solicitudes.CompareTransitive | src/pages/SolicitudesPage.js:130-150 | "not after" under the comparator is transitive for every column and order |
| Solicitudes.ComparatorIsConsistent | src/pages/SolicitudesPage.js:130-150 | the comparator handed to the sort is antisymmetric and transitive whenever `localeCompare` is a total preorder |
| Solicitudes.NeighboursSortedIsSorted | src/pages/SolicitudesPage.js:130 | under a transitive comparator, neighbours in order means every pair in order |
| Solicitudes.SortedByNumero | src/pages/SolicitudesPage.js:137-149 | sorted by number ascending gives non-decreasing `numero_afap`; descending gives non-increasing |
| Solicitudes.Swap | src/pages/SolicitudesPage.js:130 | exchanges two array cells and keeps the multiset of records |
| Solicitudes.InsertStep | src/pages/SolicitudesPage.js:130 | swapping the one out-of-order neighbour pair moves the gap one place left |
| Solicitudes.StartInsert | src/pages/SolicitudesPage.js:130 | before an insertion pass only the pair ending at the new element may be out of order |
| Solicitudes.FinishInsert | src/pages/SolicitudesPage.js:130 | a pass that stops at the front or at an ordered pair leaves the prefix in order |
| Solicitudes.InsertLeft | src/pages/SolicitudesPage.js:130 | one insertion pass keeps the multiset and extends the sorted prefix by one |
| Solicitudes.SortInPlace | src/pages/SolicitudesPage.js:130-150 | `result.sort(cmp)`: the array ends as a permutation of itself, sorted by the comparator |
| Solicitudes.CountEstados | src/pages/SolicitudesPage.js:156-164 | the counters are a function of the loaded list only, and `all` is its length |
| Solicitudes.CountsPartition | src/pages/SolicitudesPage.js:156-164 | the four state counters plus the records in unknown states add up to `all` |
| Solicitudes.CountsSum | src/pages/SolicitudesPage.js:156-164 | the four counters never exceed `all`, and add up to it when every state is known |
| Solicitudes.ButtonCountMatchesFilter | src/pages/SolicitudesPage.js:227-252 | with a blank search, the number on a filter button is the length of the list that filter shows |
| Solicitudes.NextSort | src/pages/SolicitudesPage.js:166-173 | the same column flips the order; another column is selected in descending order |
| Solicitudes.NextSortTwice | src/pages/SolicitudesPage.js:166-173 | toggling the same column twice restores the order |
| Solicitudes.ActionRequest | src/pages/SolicitudesPage.js:431-447 | "En Inspección" sends 'inspeccion', "Aprobar y Notificar" sends 'aprobado' and "Rechazar" sends 'rechazado', each with a non-empty note; rejecting sends the typed note, or "No cumple requisitos" when none was typed |
| Solicitudes.CardButtons | src/pages/SolicitudesPage.js:349-451 | the certificate button shows iff the request is approved; the details toggle always shows, captioned by whether the details are open; the three state buttons show iff the details are open and the user is an inspector or administrator |
| Solicitudes.StateButtonsNeedStaffAndDetails | src/pages/SolicitudesPage.js:321-421 | a card with closed details shows no state button, a citizen never sees one, and staff see each one once the details are open |
| Solicitudes.AfapCard.constructor | src/pages/SolicitudesPage.js:332-333 | a card starts with its details closed and an empty observation |
| Solicitudes.AfapCard.ToggleDetails | src/pages/SolicitudesPage.js:363 | "Ver Detalles" / "Ocultar" flips whether the details are open |
| Solicitudes.AfapCard.SetObservaciones | src/pages/SolicitudesPage.js:459-461 | typing sets the observation text |
| Solicitudes.AfapCard.Press | src/pages/SolicitudesPage.js:421-451 | a state button can be pressed only with the details open and a staff user, and sends the state and note of `ActionRequest` for the current observation |
| Solicitudes.QueryAsWritten | src/pages/SolicitudesPage.js:109-126 | the stages as written either return the list unchanged or throw |
| Solicitudes.QueryAsWrittenAgreement | src/pages/SolicitudesPage.js:109-126 | the stages as written succeed iff the list is empty or neither callback runs, and then agree with the intended stages |
| Solicitudes.QueryAsWrittenThrows | src/pages/SolicitudesPage.js:110 | one pending request under filter "pendiente" throws as written, where the intended filter shows it |
| Solicitudes.CardSubject | src/pages/SolicitudesPage.js:331 | the card renders iff it receives a prop named `afap` |
| Solicitudes.CardSubjectOfProps | src/pages/SolicitudesPage.js:318-331 | the props as written make every card fail; the intended props show the card's own request |
| Solicitudes.SolicitudesPage.constructor | src/pages/SolicitudesPage.js:14-19 | starts with no requests, loading, filter 'all', an empty query, by date descending |
| Solicitudes.SolicitudesPage.LoadAfaps | src/pages/SolicitudesPage.js:25-35 | a response replaces the list with no notification; a failure keeps the list and shows "Error al cargar las solicitudes"; loading ends either way |
| Solicitudes.SolicitudesPage.SetFilter | src/pages/SolicitudesPage.js:238 | a filter button sets the status filter |
| Solicitudes.SolicitudesPage.SetSearchQuery | src/pages/SolicitudesPage.js:212-217 | typing sets the query; the clear button sets it to "" |
| Solicitudes.SolicitudesPage.ToggleSort | src/pages/SolicitudesPage.js:166-173 | the new column and order are those of `NextSort` |
| Solicitudes.SolicitudesPage.FilteredAndSorted | src/pages/SolicitudesPage.js:105-153 | the result is a permutation of the filtered and searched records, sorted by the chosen column and order, no longer than the loaded list, which is left unchanged |
| Certificado.AfterLoad | src/pages/VerificarCertificadoPage.js:20-33 | a record is stored; a failure stores the server's detail when it is non-empty and "Error al verificar el certificado" otherwise, so the error is always set; loading ends |
| Certificado.IsVencido | src/pages/VerificarCertificadoPage.js:35-38 | expired iff an expiry date is present and strictly before now; never without a record or a date |
| Certificado.EstadoVerdict | src/pages/VerificarCertificadoPage.js:40-57 | an error gives NO VÁLIDO; otherwise an expired record gives VENCIDO |
| Certificado.NoValidoAndVencidoIff | src/pages/VerificarCertificadoPage.js:41-57 | NO VÁLIDO iff there is an error; VENCIDO iff there is no error and the record has expired |
| Certificado.ValidoIff | src/pages/VerificarCertificadoPage.js:59-66 | VÁLIDO iff there is no error and the record is approved with no expiry date or one not yet passed |
| Certificado.NoAprobadoIff | src/pages/VerificarCertificadoPage.js:68-73 | NO APROBADO iff there is no error, the record has not expired and it is not approved |
| Certificado.ErrorIgnoresRecord | src/pages/VerificarCertificadoPage.js:41-47 | with an error, neither the record nor the time changes the verdict |
| Certificado.ExpiredBeforeEstado | src/pages/VerificarCertificadoPage.js:50-57 | an expired record reads VENCIDO whatever its state |
| Certificado.VerdictMonotoneInTime | src/pages/VerificarCertificadoPage.js:35-57 | once VENCIDO a certificate stays so later; a VÁLIDO one was VÁLIDO at every earlier instant |
| Certificado.FailedLoadIsNoValido | src/pages/VerificarCertificadoPage.js:28-29 | every failed request ends as NO VÁLIDO, with or without a detail from the server |
| Certificado.ThirtyDayWindow | src/pages/VerificarCertificadoPage.js:35-66 | an approval expiring 30 days after t is VÁLIDO at t + 10 days and VENCIDO at t + 40 days |
| Certificado.PageView | src/pages/VerificarCertificadoPage.js:76 | the spinner shows iff the record is loading |
| DashboardLayout.VisibleMenuItems | src/components/DashboardLayout.js:26 | every visible entry lists the role, and the entries keep the table order |
| DashboardLayout.VisibleMenuExact | src/components/DashboardLayout.js:26 | an entry is visible iff it is in the table and its roles contain the user's role |
| DashboardLayout.VisibleMenuUnrolled | src/components/DashboardLayout.js:18-26 | the visible menu is each of the five entries kept or dropped in table order |
| DashboardLayout.CiudadanoMenu | src/components/DashboardLayout.js:19-20 | a citizen sees "Inicio" and "Mis Solicitudes" |
| DashboardLayout.InspectorMenu | src/components/DashboardLayout.js:19-22 | an inspector sees "Inicio", "Solicitudes" and "Inspecciones" |
| DashboardLayout.AdministradorMenu | src/components/DashboardLayout.js:19-23 | an administrator sees every entry but "Mis Solicitudes" |
| DashboardLayout.UnknownRoleMenu | src/components/DashboardLayout.js:26 | a missing or unknown role sees no entry |
| AppRoutes.FirstMatch | src/App.js:28-92 | renders a route of the table whose pattern matches the path, and redirects iff no route matches |
| AppRoutes.FirstMatchIsFirst | src/App.js:28-92 | the rendered route is the first matching one: no route before it matches |
| AppRoutes.Resolve | src/App.js:28-92 | the page for a path is a route of the table matching it, or the redirect to "/" when none matches |
| AppRoutes.RoutesDisjoint | src/App.js:28-85 | no path matches two routes of the table |
| AppRoutes.ResolveStatic | src/App.js:28-85 | each literal path resolves to its own table entry |
| AppRoutes.PublicPaths | src/App.js:28-31 | "/", "/login", "/register" and every certificate link render a public route |
| AppRoutes.ProtectedPaths | src/App.js:34-85 | the dashboard admits any signed-in user; the request form and own-requests pages only citizens; the request list and inspections only inspectors and administrators; statistics only administrators |
| AppRoutes.UnknownPathRedirects | src/App.js:92 | every path outside the table redirects to "/" |
| AppRoutes.MenuAgreesWithRoutes | src/components/DashboardLayout.js:18-24 | for each of the three roles, a menu entry shows exactly when the page it links to admits that role |
| AppRoutes.MenuCoversProtectedRoutes | src/App.js:34-85 | every protected page except the request form has a menu entry |
| AppRoutes.OtherRoleDashboardWithoutMenu | src/App.js:34-41 | the one place the tables part: a user with an unknown role is admitted to the dashboard but the sidebar shows no "Inicio" entry |
| NuevaSolicitud.Prefill | src/pages/NuevaSolicitudPage.js:23-27 | an applicant field is always a string: the profile value when the user has a non-empty one, otherwise empty (also when no user is signed in) |
| NuevaSolicitud.InitialFormDefaults | src/pages/NuevaSolicitudPage.js:30-65 | the holder type starts as 'fisica', the locality as 'Buenos Aires', no documents, with sanitary facilities |
| NuevaSolicitud.InitialFormCounts | src/pages/NuevaSolicitudPage.js:57-63 | the five fixture counts start at 0 and the worker count at 1 |
| NuevaSolicitud.InitialFormPrefill | src/pages/NuevaSolicitudPage.js:23-27 | each of the five applicant fields copies its non-empty profile value, and a missing or empty profile value leaves it empty |
| NuevaSolicitud.InitialFormWithoutUser | src/pages/NuevaSolicitudPage.js:23-27 | without a signed-in user each of the five applicant fields starts empty |
| NuevaSolicitud.SubmitData | src/pages/NuevaSolicitudPage.js:77-86 | the posted record is the form with the surface replaced by its float parse and each of the six counts by its `parseInt`; every other field is unchanged |
| NuevaSolicitud.SubmittedCountsAreNumeric | src/pages/NuevaSolicitudPage.js:80-85 | every count in a posted record is a number or NaN |
| NuevaSolicitud.ParseIntIdempotent | src/pages/NuevaSolicitudPage.js:80-85 | parsing an already parsed value changes nothing |
| NuevaSolicitud.SubmitInitialForm | src/pages/NuevaSolicitudPage.js:57-85 | the default form posts one worker and zero fixtures, as numbers |
| NuevaSolicitud.SubmitDataIdempotent | src/pages/NuevaSolicitudPage.js:77-86 | coercing a posted record again changes no field |
| NuevaSolicitud.NextStepOf | src/pages/NuevaSolicitudPage.js:99 | the next step is one more, but never past 4, and 4 stays 4 |
| NuevaSolicitud.PrevStepOf | src/pages/NuevaSolicitudPage.js:100 | the previous step is one less, but never below 1, and 1 stays 1 |
| NuevaSolicitud.WalkStaysInRange | src/pages/NuevaSolicitudPage.js:99-100 | any sequence of button presses from a step in 1..4 stays in 1..4 |
| NuevaSolicitud.ForwardWalk | src/pages/NuevaSolicitudPage.js:99 | pressing "Siguiente" n times reaches min(s + n, 4) |
| NuevaSolicitud.NextThenPrev | src/pages/NuevaSolicitudPage.js:99-100 | forward then back returns to any step below 4 |
| NuevaSolicitud.StepperView | src/pages/NuevaSolicitudPage.js:124-504 | circle k is lit iff step >= k, connector k iff step > k; submit shows iff step >= 4; "Anterior" is disabled iff step is 1 |
| NuevaSolicitud.StepperProgress | src/pages/NuevaSolicitudPage.js:124-504 | on step s exactly s circles and s - 1 connectors are lit, and submit shows only on step 4 |
| NuevaSolicitud.LitPrefixCount | src/pages/NuevaSolicitudPage.js:124-136 | a row whose first k lights are lit and no others has k lit |
| NuevaSolicitud.NuevaSolicitudPage.constructor | src/pages/NuevaSolicitudPage.js:18-66 | starts on step 1, not submitting, with the initial record for the user |
| NuevaSolicitud.NuevaSolicitudPage.NextStep | src/pages/NuevaSolicitudPage.js:99 | moves to the next step and keeps the step in 1..4 |
| NuevaSolicitud.NuevaSolicitudPage.PrevStep | src/pages/NuevaSolicitudPage.js:100 | moves to the previous step and keeps the step in 1..4 |
| NuevaSolicitud.NuevaSolicitudPage.HandleChange | src/pages/NuevaSolicitudPage.js:68-70 | sets one field to the value and leaves every other field as it was |
| NuevaSolicitud.NuevaSolicitudPage.HandleSubmit | src/pages/NuevaSolicitudPage.js:72-97 | posts the coerced record; success moves to the applicant's list, failure shows the server's detail or the default message; loading ends |
| Inspecciones.Stats | src/pages/InspeccionesPage.js:85-104 | the total is the list length, each counter is the number of positions holding an inspection in its state, and scheduled plus completed never exceed the total |
| Inspecciones.StatsAppend | src/pages/InspeccionesPage.js:85-104 | one more inspection raises the total and exactly the counter of its own state |
| Inspecciones.StatsCountExactly | src/pages/InspeccionesPage.js:85-95 | each counter is the length of its filtered list, which holds exactly the inspections in its state, each as often as it occurs in the loaded list |
| Inspecciones.InspeccionBadge | src/pages/InspeccionesPage.js:28-47 | a known state shows its own badge; any other state shows the "Programada" one |
| Dashboard.TakeRecent | src/pages/DashboardPage.js:35-44 | an array gives its first min(n, 5) elements; anything else gives none |
| Dashboard.RecentSourceFallback | src/pages/DashboardPage.js:43-44 | staff see the statistics' recent list when it is truthy, otherwise the `/afap` data |
| Dashboard.EmptyRecentListWins | src/pages/DashboardPage.js:43 | an empty `recent_afaps` array is truthy and hides a non-empty `/afap` list |
| Dashboard.RecentIsPrefix | src/pages/DashboardPage.js:35-44 | the recent list is a prefix of the array it was taken from |
| Dashboard.StatCardsAsWritten | src/pages/DashboardPage.js:117-164 | no cards for a citizen or before the statistics are set |
| Dashboard.StatCardsCrashAfterFailure | src/pages/DashboardPage.js:50-127 | after a failed load the cards as written throw for every visitor who is not a citizen |
| Dashboard.StatCards | src/pages/DashboardPage.js:117-164 | the cards show iff the visitor is not a citizen and both summaries are present |
| Dashboard.StatCardsAgree | src/pages/DashboardPage.js:117-164 | wherever the cards as written do not throw, the guarded cards show the same; after a failure they are hidden |
| Dashboard.DashboardPage.constructor | src/pages/DashboardPage.js:22-24 | starts with no statistics, no recent requests, loading |
| Dashboard.DashboardPage.LoadData | src/pages/DashboardPage.js:30-54 | a citizen's recent list comes from `/afap`; staff get the statistics body (or `{}`) and the recent list from the source fallback; any failure clears the list, sets `{}` and shows the error; at most five recent; loading ends |
| Dashboard.RecentBadgeFallback | src/pages/DashboardPage.js:56-80 | a recent request in an unknown state shows the "Pendiente" badge |
| Register.RegisterPayload | src/pages/RegisterPage.js:34-41 | nothing is sent iff the passwords differ; otherwise the payload is the form without `confirmPassword`, every other field unchanged |
| Register.PayloadRestoresForm | src/pages/RegisterPage.js:41 | putting the password back under `confirmPassword` rebuilds the form |
| Register.InitialFormPayload | src/pages/RegisterPage.js:13-22 | the untouched form can be submitted and registers a citizen |
| Register.RegisterPage.constructor | src/pages/RegisterPage.js:13-23 | starts from the empty form with role 'ciudadano', not busy |
| Register.RegisterPage.HandleChange | src/pages/RegisterPage.js:27-29 | sets one field and leaves every other field as it was |
| Register.RegisterPage.HandleSubmit | src/pages/RegisterPage.js:31-52 | a password mismatch shows an error without calling `register`; otherwise the payload is sent, success moves to the dashboard, failure shows the returned error; busy ends |

## Left out

- HTTP requests (`api.get`, `api.post`, `api.patch`, `axios.get`) and the authentication provider's `register`. Their outcomes are parameters of the methods that use them.
- Register.RegisterPage.HandleSubmit: `register` is taken to answer with success or failure. A rejected promise is not modelled; the page awaits it without `try`/`finally`, so such a rejection would leave `isLoading` set.
- Solicitudes.NameKey: the optional name fields do not tell `null` from `undefined`, and both are keyed as the text "undefined". The template literal renders `null` as "null", so a record with a `null` name can sort differently by name. The search stage is unaffected, since `?.` treats both alike.
- Updating a request's state (`handleUpdateEstado`) and the certificate PDF download. These are requests to a back end that is not part of this model. Only the arguments a card button sends are modelled (`ActionRequest`).
- Solicitudes.FilteredAndSorted: promises a sorted permutation but not that equal elements keep their order. JavaScript's `Array.prototype.sort` is stable, and this model sorts with an insertion sort whose stability is not proved.
- The `default` branch of the sort comparator, which gives 0, is unreachable: `sortBy` only ever holds one of the three columns.
- `localeCompare` is a parameter taken to be a total preorder. Locale collation itself is not modelled.
- `new Date(...)` parsing: dates are integer timestamps, and the date sort subtracts them.
- `parseFloat(metros_cuadrados)` is a parameter of the submission. Floating point is not modelled.
- JsSemantics.ParseIntText: models decimal `parseInt` only. The `0x` prefix, a radix argument and the exponent notation of numbers from 1e21 up are not modelled.
- JsSemantics.LowerChar: lower-cases ASCII and Latin-1 letters only, not the rest of Unicode.
- React Router ranks routes by specificity rather than taking the first match. Over this table the two agree, because no path matches two routes (`AppRoutes.RoutesDisjoint`) and the catch-all is the fallback.
- React Router's case-insensitive matching, trailing slashes and URL decoding are not modelled.
- How `ProtectedRoute` enforces `allowedRoles` is not modelled: `AppRoutes.Admits` reads the table. `ProtectedRoute` and `AuthContext` are not part of this model.
- Badge lookups by inherited property names (an `estado` such as "constructor") are not modelled. Every state outside the table falls back.
- The certificate page's behaviour when no `afapId` is in the URL is not modelled.
- The empty-result messages and the rendering of lists, icons and colours are display only.
- NuevaSolicitud.SubmitDataIdempotent: stated one field at a time rather than as an equality of whole records.
- The statistics page's percentages (floating-point division and `toFixed`) are not modelled. Neither are the login, landing, own-requests, password-gate and assistant components, which are presentation or a client-side secret.

## Findings

| source | as written | input that shows it | evidently intended | confidence | as-written member | corrected member |
|---|---|---|---|---|---|---|
| src/pages/SolicitudesPage.js:110-116 | both filter callbacks name their parameter `habilitacion_precaria` but read `afap`, which is not bound there, so each throws a ReferenceError when called | one request in state "pendiente" with the filter "pendiente" (or any non-empty list with a non-blank search) | each callback reads its own parameter, so the stages keep the matching records | high; not executed | Solicitudes.QueryAsWritten, Solicitudes.QueryAsWrittenThrows | Solicitudes.Query, Solicitudes.StatusStageKeeps, Solicitudes.SearchStageKeeps |
| src/pages/SolicitudesPage.js:318-331 | the list passes each request as `habilitacion_precaria={afap}`, but `AFAPCard` destructures a prop named `afap`, which is then undefined, and reading `afap.numero_afap` throws | any non-empty list with filter 'all' and a blank search | the request is passed as `afap={afap}` | high; not executed | Solicitudes.CardPropsAsWritten, Solicitudes.CardSubjectOfProps | Solicitudes.CardPropsIntended, Solicitudes.CardSubjectOfProps |
| src/pages/DashboardPage.js:50-127 | a failed load sets the statistics to `{}`, which is truthy, so the cards render for every visitor who is not a citizen and read `stats.afaps.total` from a missing member | an inspector whose statistics request fails | the cards render only when the summaries are present | high; not executed | Dashboard.StatCardsAsWritten, Dashboard.StatCardsCrashAfterFailure | Dashboard.StatCards, Dashboard.StatCardsAgree |

=== FILE: afap.dfy ===
/** A licence request ("Habilitación Precaria", AFAP in the code) as the pages
    receive it from the back end, and the status badge table that the request
    list and the dashboard both use. */
module AfapRecord {
  import opened JsSemantics

  /** The fields the client-side logic reads. Text fields the back end may
      omit are optional; dates are integer timestamps. */
  datatype Afap = Afap(
    id: string,
    numeroAfap: int,
    estado: string,
    fechaSolicitud: int,
    solicitanteNombre: Option<string>,
    solicitanteApellido: Option<string>,
    solicitanteCuitCuil: Option<string>,
    titularNombre: Option<string>,
    titularCuit: Option<string>,
    domicilioCalle: Option<string>,
    domicilioLocalidad: Option<string>,
    rubroTipo: Option<string>)

  /** The role of a signed-in user: the three the pages know, or any other
      role string. Where a page takes `Option<Role>`, `None` means nobody is
      signed in. */
  datatype Role = Ciudadano | Inspector | Administrador | OtherRole

  /** The four workflow states the pages know about. */
  predicate IsKnownEstado(e: string)
  {
    e == "pendiente" || e == "inspeccion" || e == "aprobado" || e == "rechazado"
  }

  /** An entry of the badge table: the state it belongs to and its caption. */
  datatype Badge = Badge(key: string, caption: string)

  const Badges: map<string, Badge> := map[
    "pendiente" := Badge("pendiente", "Pendiente"),
    "aprobado" := Badge("aprobado", "Aprobado"),
    "rechazado" := Badge("rechazado", "Rechazado"),
    "inspeccion" := Badge("inspeccion", "En Inspección")]

  /** `badges[estado] || badges.pendiente`: a known state shows its own
      badge, anything else shows the "Pendiente" one. */
  function EstadoBadge(estado: string): (b: Badge)
    ensures IsKnownEstado(estado) ==> b.key == estado
    ensures !IsKnownEstado(estado) ==> b == Badge("pendiente", "Pendiente")
    ensures b.caption == "Pendiente" <==> b.key == "pendiente"
  {
    if estado in Badges then Badges[estado] else Badges["pendiente"]
  }
}

=== FILE: certificado.dfy ===
/** The public certificate check (VerificarCertificadoPage): the record comes
    from `GET /api/verificar/:afapId`, and the page shows one of four
    verdicts computed from the load error, the record's state, its expiry
    date and the current time. Dates are integer timestamps in milliseconds. */
module Certificado {
  import opened JsSemantics

  const MillisPerDay: int := 86_400_000

  /** The part of the public record that the verdict reads. An absent expiry
      stands for every falsy `fecha_vencimiento` (missing, null, empty). */
  datatype CertRecord = CertRecord(estado: string, fechaVencimiento: Option<int>)

  /** Outcome of the request: the record, or a failure with the server's
      `detail` message when there is one. */
  datatype Response = Loaded(data: CertRecord) | Failed(detail: Option<string>)

  datatype PageState = PageState(record: Option<CertRecord>, error: Option<string>, loading: bool)

  /** State before the request completes. */
  const InitialState := PageState(None, None, true)

  /** `loadAfap`: a record is stored; a failure stores
      `detail || 'Error al verificar el certificado'`; loading ends. */
  function AfterLoad(st: PageState, response: Response): (r: PageState)
    ensures !r.loading
    ensures response.Loaded? ==> r.record == Some(response.data) && r.error == st.error
    ensures response.Failed? ==> r.record == st.record && Truthy(r.error)
    ensures response.Failed? && Truthy(response.detail) ==> r.error == response.detail
    ensures response.Failed? && !Truthy(response.detail) ==> r.error == Some("Error al verificar el certificado")
  {
    match response
    case Loaded(data) => PageState(Some(data), st.error, false)
    case Failed(detail) =>
      PageState(st.record, Some(OrElse(detail, "Error al verificar el certificado")), false)
  }

  /** `isVencido()`: the expiry instant lies strictly before now. */
  function IsVencido(record: Option<CertRecord>, now: int): (r: bool)
    ensures record.None? || record.value.fechaVencimiento.None? ==> !r
    ensures r <==> record.Some? && record.value.fechaVencimiento.Some? && record.value.fechaVencimiento.value < now
  {
    match record
    case None => false
    case Some(rec) =>
      match rec.fechaVencimiento
      case None => false
      case Some(expiry) => expiry < now
  }

  datatype Verdict = NoValido | Vencido | Valido | NoAprobado

  /** `getEstadoBadge()`: error first, then expiry, then the state. */
  function EstadoVerdict(st: PageState, now: int): (v: Verdict)
    ensures Truthy(st.error) ==> v == NoValido
    ensures !Truthy(st.error) && IsVencido(st.record, now) ==> v == Vencido
  {
    if Truthy(st.error) then NoValido
    else if IsVencido(st.record, now) then Vencido
    else if st.record.Some? && st.record.value.estado == "aprobado" then Valido
    else NoAprobado
  }

  /** NO VÁLIDO exactly when there is an error; VENCIDO exactly when there is
      none and the record has expired. */
  lemma NoValidoAndVencidoIff(st: PageState, now: int)
    ensures EstadoVerdict(st, now) == NoValido <==> Truthy(st.error)
    ensures EstadoVerdict(st, now) == Vencido <==> !Truthy(st.error) && IsVencido(st.record, now)
  {
  }

  /** A certificate reads VÁLIDO exactly when there is no error and the record
      is approved with no expiry date or one not yet passed. */
  lemma ValidoIff(st: PageState, now: int)
    ensures EstadoVerdict(st, now) == Valido <==>
      !Truthy(st.error) && st.record.Some? && st.record.value.estado == "aprobado" &&
      (st.record.value.fechaVencimiento.None? || now <= st.record.value.fechaVencimiento.value)
  {
  }

  /** NO APROBADO is what is left: no error, not expired, not approved. */
  lemma NoAprobadoIff(st: PageState, now: int)
    ensures EstadoVerdict(st, now) == NoAprobado <==>
      !Truthy(st.error) && !IsVencido(st.record, now) &&
      !(st.record.Some? && st.record.value.estado == "aprobado")
  {
  }

  /** With an error shown, the record and the time do not matter. */
  lemma ErrorIgnoresRecord(st1: PageState, st2: PageState, now1: int, now2: int)
    requires Truthy(st1.error) && Truthy(st2.error)
    ensures EstadoVerdict(st1, now1) == EstadoVerdict(st2, now2) == NoValido
  {
  }

  /** An expired record reads VENCIDO whatever its state, approved or not. */
  lemma ExpiredBeforeEstado(rec: CertRecord, now: int)
    requires rec.fechaVencimiento.Some? && rec.fechaVencimiento.value < now
    ensures EstadoVerdict(PageState(Some(rec), None, false), now) == Vencido
  {
  }

  /** Once expired, a certificate stays expired as time goes on; a valid one
      was valid at every earlier instant. */
  lemma VerdictMonotoneInTime(st: PageState, now: int, later: int)
    requires now <= later
    ensures EstadoVerdict(st, now) == Vencido ==> EstadoVerdict(st, later) == Vencido
    ensures EstadoVerdict(st, later) == Valido ==> EstadoVerdict(st, now) == Valido
  {
  }

  /** A failed request always ends as NO VÁLIDO: the default message makes the
      error truthy even when the server sends no detail. */
  lemma FailedLoadIsNoValido(response: Response, now: int)
    requires response.Failed?
    ensures EstadoVerdict(AfterLoad(InitialState, response), now) == NoValido
  {
  }

  /** A loaded record approved at `t` with an expiry 30 days later is VÁLIDO
      10 days after `t` and VENCIDO 40 days after it. */
  lemma ThirtyDayWindow(t: int)
    ensures var st := AfterLoad(InitialState, Loaded(CertRecord("aprobado", Some(t + 30 * MillisPerDay))));
      EstadoVerdict(st, t + 10 * MillisPerDay) == Valido &&
      EstadoVerdict(st, t + 40 * MillisPerDay) == Vencido
  {
  }

  datatype View = Spinner | VerdictBadge(verdict: Verdict)

  /** While loading only the spinner shows; afterwards the verdict badge. */
  function PageView(st: PageState, now: int): (v: View)
    ensures v.Spinner? <==> st.loading
  {
    if st.loading then Spinner else VerdictBadge(EstadoVerdict(st, now))
  }
}

=== FILE: dashboard.dfy ===
/** The dashboard start page: what `loadData` stores for each role (the five
    most recent requests and, for staff, the statistics object), and the
    stat cards drawn from those statistics. */
module Dashboard {
  import opened JsSemantics
  import opened AfapRecord

  const MaxRecent := 5

  /** A response value where the page expects a list of requests: absent
      (undefined or null), another falsy value, an array, or some other
      truthy value. An empty array is truthy. */
  datatype ListValue = Absent | OtherFalsy | List(items: seq<Afap>) | OtherTruthy

  predicate ListTruthy(v: ListValue)
  {
    v.List? || v.OtherTruthy?
  }

  datatype AfapsSummary = AfapsSummary(total: int, pendientes: int, aprobados: int)
  datatype InspeccionesSummary = InspeccionesSummary(programadas: int)

  /** The statistics object: the members the page reads, each possibly
      missing. */
  datatype StatsBody = StatsBody(
    recentAfaps: ListValue,
    afaps: Option<AfapsSummary>,
    inspecciones: Option<InspeccionesSummary>)

  /** `{}`: an object with none of the members. */
  const EmptyStats := StatsBody(Absent, None, None)

  /** `Array.isArray(v) ? v.slice(0, 5) : []`. */
  function TakeRecent(v: ListValue): (r: seq<Afap>)
    ensures |r| <= MaxRecent
    ensures v.List? ==> |r| == (if |v.items| < MaxRecent then |v.items| else MaxRecent) && r == v.items[..|r|]
    ensures !v.List? ==> r == []
  {
    if v.List? then
      if |v.items| < MaxRecent then v.items else v.items[..MaxRecent]
    else []
  }

  /** `statsData?.recent_afaps || afapsData || []`, where a falsy
      statistics body is `None`. */
  function RecentSource(statsData: Option<StatsBody>, afapsData: ListValue): ListValue
  {
    if statsData.Some? && ListTruthy(statsData.value.recentAfaps) then statsData.value.recentAfaps
    else if ListTruthy(afapsData) then afapsData
    else List([])
  }

  /** The staff recent list is taken from the statistics when they carry a
      truthy `recent_afaps`, otherwise from the `/afap` data: it is the
      first at most five entries of an array, or empty. */
  lemma RecentSourceFallback(statsData: Option<StatsBody>, afapsData: ListValue)
    ensures var recent := TakeRecent(RecentSource(statsData, afapsData));
      if statsData.Some? && ListTruthy(statsData.value.recentAfaps) then
        recent == TakeRecent(statsData.value.recentAfaps)
      else
        recent == TakeRecent(afapsData)
  {
  }

  /** An empty `recent_afaps` array is truthy: it wins over a non-empty
      `/afap` list and the dashboard shows no recent request. */
  lemma EmptyRecentListWins(afapsData: ListValue)
    ensures TakeRecent(RecentSource(Some(StatsBody(List([]), None, None)), afapsData)) == []
  {
  }

  /** The recent list is a prefix of whichever array it was taken from. */
  lemma RecentIsPrefix(v: ListValue)
    requires v.List?
    ensures |TakeRecent(v)| <= |v.items|
    ensures forall i :: 0 <= i < |TakeRecent(v)| ==> TakeRecent(v)[i] == v.items[i]
  {
  }

  /** The stat cards as written: shown when the role is not `ciudadano` and
      the statistics object is set; each card reads a member of `afaps` or
      `inspecciones`, which throws when that member is missing. */
  function StatCardsAsWritten(role: Option<Role>, stats: Option<StatsBody>): (r: Result<Option<(AfapsSummary, InspeccionesSummary)>, RenderError>)
    ensures role == Some(Ciudadano) || stats.None? ==> r == Ok(None)
  {
    if role != Some(Ciudadano) && stats.Some? then
      if stats.value.afaps.None? then Err(TypeError("total"))
      else if stats.value.inspecciones.None? then Err(TypeError("programadas"))
      else Ok(Some((stats.value.afaps.value, stats.value.inspecciones.value)))
    else Ok(None)
  }

  /** After a failed load the statistics are `{}`, and the cards as written
      throw for every visitor who is not a citizen. */
  lemma StatCardsCrashAfterFailure(role: Option<Role>)
    requires role != Some(Ciudadano)
    ensures StatCardsAsWritten(role, Some(EmptyStats)) == Err(TypeError("total"))
  {
  }

  /** The cards with the evident intent: drawn only when both summaries are
      present, so a missing member hides them instead of throwing. */
  function StatCards(role: Option<Role>, stats: Option<StatsBody>): (r: Option<(AfapsSummary, InspeccionesSummary)>)
    ensures r.Some? <==> (role != Some(Ciudadano) && stats.Some? &&
      stats.value.afaps.Some? && stats.value.inspecciones.Some?)
  {
    if role != Some(Ciudadano) && stats.Some? && stats.value.afaps.Some? && stats.value.inspecciones.Some? then
      Some((stats.value.afaps.value, stats.value.inspecciones.value))
    else None
  }

  /** Wherever the code as written does not throw, the guarded cards show the
      same thing; after a failed load they are simply hidden. */
  lemma StatCardsAgree(role: Option<Role>, stats: Option<StatsBody>)
    ensures StatCardsAsWritten(role, stats).Ok? ==> StatCardsAsWritten(role, stats) == Ok(StatCards(role, stats))
    ensures StatCards(role, Some(EmptyStats)) == None
  {
  }

  /** The page state: the statistics object (null until loaded), the recent
      requests and the loading flag. */
  class DashboardPage {
    var stats: Option<StatsBody>
    var recentAfaps: seq<Afap>
    var loading: bool

    constructor()
      ensures stats == None && recentAfaps == [] && loading
    {
      stats := None;
      recentAfaps := [];
      loading := true;
    }

    /** `loadData`. A citizen asks only for `/afap`; staff ask for the
        statistics and `/afap` together, and either failing is a failure.
        A failure clears the recent list, sets the statistics to `{}` and
        raises an error notification. The statistics body is `None` when
        it is falsy. */
    method LoadData(role: Option<Role>, afapResponse: Result<ListValue, string>,
                    statsResponse: Result<Option<StatsBody>, string>)
      returns (toast: Toast)
      modifies this`stats, this`recentAfaps, this`loading
      ensures !loading
      ensures |recentAfaps| <= MaxRecent
      ensures role == Some(Ciudadano) ==>
        if afapResponse.Ok? then
          recentAfaps == TakeRecent(afapResponse.value) && stats == old(stats) && toast == NoToast
        else
          recentAfaps == [] && stats == Some(EmptyStats) && toast == ErrorToast("Error al cargar los datos")
      ensures role != Some(Ciudadano) ==>
        if afapResponse.Ok? && statsResponse.Ok? then
          var body := if statsResponse.value.Some? then statsResponse.value.value else EmptyStats;
          stats == Some(body) && toast == NoToast &&
          recentAfaps == TakeRecent(RecentSource(statsResponse.value, afapResponse.value))
        else
          recentAfaps == [] && stats == Some(EmptyStats) && toast == ErrorToast("Error al cargar los datos")
    {
      toast := NoToast;
      if role == Some(Ciudadano) {
        if afapResponse.Ok? {
          recentAfaps := TakeRecent(afapResponse.value);
        } else {
          toast := ErrorToast("Error al cargar los datos");
          recentAfaps := [];
          stats := Some(EmptyStats);
        }
      } else {
        if afapResponse.Ok? && statsResponse.Ok? {
          stats := Some(if statsResponse.value.Some? then statsResponse.value.value else EmptyStats);
          recentAfaps := TakeRecent(RecentSource(statsResponse.value, afapResponse.value));
        } else {
          toast := ErrorToast("Error al cargar los datos");
          recentAfaps := [];
          stats := Some(EmptyStats);
        }
      }
      loading := false;
    }
  }

  /** The badge of a recent request uses the shared table, so an unknown
      state shows as "Pendiente". */
  lemma RecentBadgeFallback(a: Afap)
    requires !IsKnownEstado(a.estado)
    ensures EstadoBadge(a.estado).caption == "Pendiente"
  {
  }
}

=== FILE: inspecciones.dfy ===
/** The inspections page: three counters over the loaded inspections and the
    state badge with its fallback. */
module Inspecciones {
  import opened JsSemantics
  import opened AfapRecord

  /** An inspection as the page reads it. */
  datatype Inspeccion = Inspeccion(id: string, afapId: string, estado: string)

  function InspeccionEstadoIs(e: string): Inspeccion -> bool
  {
    (i: Inspeccion) => i.estado == e
  }

  datatype InspeccionStats = InspeccionStats(programadas: nat, completadas: nat, total: nat)

  /** The three stat cards: inspections in state `programada`, those in
      state `completada`, and all of them. */
  function Stats(xs: seq<Inspeccion>): (s: InspeccionStats)
    ensures s.total == |xs|
    ensures s.programadas == |IndicesWhere(xs, InspeccionEstadoIs("programada"))|
    ensures s.completadas == |IndicesWhere(xs, InspeccionEstadoIs("completada"))|
    ensures s.programadas + s.completadas <= s.total
  {
    CountDisjointSum(xs, InspeccionEstadoIs("programada"), InspeccionEstadoIs("completada"));
    CountIsIndexCount(xs, InspeccionEstadoIs("programada"));
    CountIsIndexCount(xs, InspeccionEstadoIs("completada"));
    InspeccionStats(
      Count(xs, InspeccionEstadoIs("programada")),
      Count(xs, InspeccionEstadoIs("completada")),
      |xs|)
  }

  /** One more inspection raises the total by one and exactly the counter of
      its own state, if it has one. */
  lemma StatsAppend(xs: seq<Inspeccion>, x: Inspeccion)
    ensures var before := Stats(xs);
      var after := Stats(xs + [x]);
      after.total == before.total + 1 &&
      after.programadas == before.programadas + (if x.estado == "programada" then 1 else 0) &&
      after.completadas == before.completadas + (if x.estado == "completada" then 1 else 0)
  {
    FilterAppend(xs, InspeccionEstadoIs("programada"), x);
    FilterAppend(xs, InspeccionEstadoIs("completada"), x);
  }

  /** Each counter is the length of the filtered list behind it, and that
      list holds exactly the inspections in its state, each as often as it
      occurs in the loaded list. */
  lemma StatsCountExactly(xs: seq<Inspeccion>, x: Inspeccion)
    ensures Stats(xs).programadas == |Filter(xs, InspeccionEstadoIs("programada"))|
    ensures Stats(xs).completadas == |Filter(xs, InspeccionEstadoIs("completada"))|
    ensures x in Filter(xs, InspeccionEstadoIs("programada")) <==> x in xs && x.estado == "programada"
    ensures x in Filter(xs, InspeccionEstadoIs("completada")) <==> x in xs && x.estado == "completada"
    ensures multiset(Filter(xs, InspeccionEstadoIs("programada")))[x] ==
      if x.estado == "programada" then multiset(xs)[x] else 0
    ensures multiset(Filter(xs, InspeccionEstadoIs("completada")))[x] ==
      if x.estado == "completada" then multiset(xs)[x] else 0
  {
    FilterMembership(xs, InspeccionEstadoIs("programada"), x);
    FilterMembership(xs, InspeccionEstadoIs("completada"), x);
    FilterMultiplicity(xs, InspeccionEstadoIs("programada"), x);
    FilterMultiplicity(xs, InspeccionEstadoIs("completada"), x);
  }

  const InspeccionBadges: map<string, Badge> := map[
    "programada" := Badge("programada", "Programada"),
    "completada" := Badge("completada", "Completada"),
    "cancelada" := Badge("cancelada", "Cancelada")]

  /** `badges[estado] || badges.programada`. */
  function InspeccionBadge(estado: string): (b: Badge)
    ensures estado in {"programada", "completada", "cancelada"} ==> b.key == estado
    ensures estado !in {"programada", "completada", "cancelada"} ==> b == Badge("programada", "Programada")
  {
    if estado in InspeccionBadges then InspeccionBadges[estado] else InspeccionBadges["programada"]
  }
}

=== FILE: js.dfy ===
/** The JavaScript built-ins the portal's pages rely on, given the meaning the
    ECMAScript library gives them: Array.prototype.filter, String.prototype
    toLowerCase / trim / includes, Number-to-String conversion and the global
    parseInt. Numbers are integers here; floating point is not modelled. */
module JsSemantics {

  datatype Option<+T> = None | Some(value: T)

  datatype Result<+T, +E> = Ok(value: T) | Err(error: E)

  // ---------------------------------------------------------------------------
  // Array.prototype.filter
  // ---------------------------------------------------------------------------

  /** `s.filter(p)`: the elements of `s` that satisfy `p`, in their order. */
  function Filter<T>(s: seq<T>, p: T -> bool): (r: seq<T>)
    ensures |r| <= |s|
    ensures forall i :: 0 <= i < |r| ==> p(r[i])
  {
    if s == [] then []
    else if p(s[0]) then [s[0]] + Filter(s[1..], p)
    else Filter(s[1..], p)
  }

  /** An element survives the filter exactly when it is in `s` and satisfies `p`. */
  lemma {:induction false} FilterMembership<T>(s: seq<T>, p: T -> bool, x: T)
    ensures x in Filter(s, p) <==> x in s && p(x)
  {
    if s != [] {
      FilterMembership(s[1..], p, x);
      assert x in s <==> x == s[0] || x in s[1..];
    }
  }

  /** `s.filter(p).length` */
  function Count<T>(s: seq<T>, p: T -> bool): nat
  {
    |Filter(s, p)|
  }

  /** The positions of `s` whose element satisfies `p`. */
  ghost function IndicesWhere<T>(s: seq<T>, p: T -> bool): set<int>
  {
    set i | 0 <= i < |s| && p(s[i])
  }

  /** `s.filter(p).length` counts the positions whose element satisfies `p`,
      so an element occurring twice is counted twice. */
  lemma {:induction false} CountIsIndexCount<T>(s: seq<T>, p: T -> bool)
    ensures Count(s, p) == |IndicesWhere(s, p)|
  {
    if s == [] {
      assert IndicesWhere(s, p) == {};
    } else {
      var init, x := s[..|s| - 1], s[|s| - 1];
      assert s == init + [x];
      CountIsIndexCount(init, p);
      FilterAppend(init, p, x);
      if p(x) {
        assert IndicesWhere(s, p) == IndicesWhere(init, p) + {|init|};
        assert |init| !in IndicesWhere(init, p);
      } else {
        assert IndicesWhere(s, p) == IndicesWhere(init, p);
      }
    }
  }

  /** Each element occurs in the filtered list as often as in `s` when it
      satisfies `p`, and not at all otherwise. */
  lemma {:induction false} FilterMultiplicity<T>(s: seq<T>, p: T -> bool, x: T)
    ensures multiset(Filter(s, p))[x] == if p(x) then multiset(s)[x] else 0
  {
    if s != [] {
      FilterMultiplicity(s[1..], p, x);
      assert s == [s[0]] + s[1..];
    }
  }

  /** `r` keeps some of the elements of `s`, in the order they have in `s`. */
  ghost predicate IsSubsequence<T>(r: seq<T>, s: seq<T>)
    decreases |s|
  {
    if r == [] then true
    else if s == [] then false
    else (r[0] == s[0] && IsSubsequence(r[1..], s[1..])) || IsSubsequence(r, s[1..])
  }

  lemma {:induction false} FilterIsSubsequence<T>(s: seq<T>, p: T -> bool)
    ensures IsSubsequence(Filter(s, p), s)
  {
    if s != [] {
      FilterIsSubsequence(s[1..], p);
      var rest := Filter(s[1..], p);
      if p(s[0]) {
        assert Filter(s, p) == [s[0]] + rest;
        assert ([s[0]] + rest)[1..] == rest;
      } else {
        assert Filter(s, p) == rest;
        SubsequenceOfTail(rest, s);
      }
    }
  }

  /** Filtering distributes over appending one element. */
  lemma {:induction false} FilterAppend<T>(s: seq<T>, p: T -> bool, x: T)
    ensures Filter(s + [x], p) == Filter(s, p) + (if p(x) then [x] else [])
  {
    if s != [] {
      assert (s + [x])[1..] == s[1..] + [x];
      FilterAppend(s[1..], p, x);
    }
  }

  /** The one-element contribution of `x` to a filter. */
  function Kept<T>(x: T, p: T -> bool): (r: seq<T>)
    ensures r == [] || r == [x]
  {
    if p(x) then [x] else []
  }

  /** Filtering a five-element sequence, written out element by element. */
  lemma FilterOfFive<T>(s: seq<T>, p: T -> bool)
    requires |s| == 5
    ensures Filter(s, p) == Kept(s[0], p) + Kept(s[1], p) + Kept(s[2], p) + Kept(s[3], p) + Kept(s[4], p)
  {
    assert Filter(s[..1], p) == Kept(s[0], p) by {
      assert s[..1] == [] + [s[0]];
      FilterAppend([], p, s[0]);
    }
    forall k | 1 <= k < 5
      ensures Filter(s[..k + 1], p) == Filter(s[..k], p) + Kept(s[k], p)
    {
      assert s[..k + 1] == s[..k] + [s[k]];
      FilterAppend(s[..k], p, s[k]);
    }
    assert s[..5] == s;
  }

  /** Two predicates that never hold together count no more than the
      whole sequence between them. */
  lemma {:induction false} CountDisjointSum<T>(s: seq<T>, p: T -> bool, q: T -> bool)
    requires forall i :: 0 <= i < |s| ==> !(p(s[i]) && q(s[i]))
    ensures Count(s, p) + Count(s, q) <= |s|
  {
    if s != [] {
      CountDisjointSum(s[1..], p, q);
    }
  }

  /** Dropping the head of the longer sequence is allowed. */
  lemma SubsequenceOfTail<T>(r: seq<T>, s: seq<T>)
    requires s != [] && IsSubsequence(r, s[1..])
    ensures IsSubsequence(r, s)
  {
  }

  lemma {:induction false} SubsequenceLength<T>(r: seq<T>, s: seq<T>)
    requires IsSubsequence(r, s)
    ensures |r| <= |s|
    decreases |s|
  {
    if r != [] {
      if r[0] == s[0] && IsSubsequence(r[1..], s[1..]) {
        SubsequenceLength(r[1..], s[1..]);
      } else {
        SubsequenceLength(r, s[1..]);
      }
    }
  }

  lemma {:induction false} SubsequenceTransitive<T>(a: seq<T>, b: seq<T>, c: seq<T>)
    requires IsSubsequence(a, b) && IsSubsequence(b, c)
    ensures IsSubsequence(a, c)
    decreases |c|
  {
    if a != [] {
      assert b != [] && c != [];
      if b[0] == c[0] && IsSubsequence(b[1..], c[1..]) {
        if a[0] == b[0] && IsSubsequence(a[1..], b[1..]) {
          SubsequenceTransitive(a[1..], b[1..], c[1..]);
        } else {
          SubsequenceTransitive(a, b[1..], c[1..]);
        }
      } else {
        SubsequenceTransitive(a, b, c[1..]);
      }
    }
  }

  lemma {:induction false} SubsequenceReflexive<T>(s: seq<T>)
    ensures IsSubsequence(s, s)
  {
    if s != [] {
      SubsequenceReflexive(s[1..]);
    }
  }

  // ---------------------------------------------------------------------------
  // String.prototype.toLowerCase (Basic Latin and Latin-1 letters)
  // ---------------------------------------------------------------------------

  predicate IsUpper(c: char)
  {
    'A' <= c <= 'Z' || (0xC0 <= c as int <= 0xDE && c as int != 0xD7)
  }

  function LowerChar(c: char): (r: char)
    ensures !IsUpper(r)
    ensures IsUpper(c) ==> r as int == c as int + 32
    ensures !IsUpper(c) ==> r == c
  {
    if IsUpper(c) then (c as int + 32) as char else c
  }

  function ToLowerCase(s: string): (r: string)
    ensures |r| == |s|
    ensures forall i :: 0 <= i < |s| ==> r[i] == LowerChar(s[i])
  {
    seq(|s|, i requires 0 <= i < |s| => LowerChar(s[i]))
  }

  /** Lower-casing twice is lower-casing once. */
  lemma ToLowerCaseIdempotent(s: string)
    ensures ToLowerCase(ToLowerCase(s)) == ToLowerCase(s)
  {
    var once := ToLowerCase(s);
    forall i | 0 <= i < |s|
      ensures ToLowerCase(once)[i] == once[i]
    {
      assert !IsUpper(once[i]);
    }
  }

  // ---------------------------------------------------------------------------
  // String.prototype.trim
  // ---------------------------------------------------------------------------

  /** ECMAScript WhiteSpace and LineTerminator code points. */
  predicate IsJsWhitespace(c: char)
  {
    var n := c as int;
    n == 0x09 || n == 0x0A || n == 0x0B || n == 0x0C || n == 0x0D || n == 0x20 ||
    n == 0xA0 || n == 0x1680 || (0x2000 <= n <= 0x200A) || n == 0x2028 ||
    n == 0x2029 || n == 0x202F || n == 0x205F || n == 0x3000 || n == 0xFEFF
  }

  function TrimStart(s: string): (r: string)
    ensures |r| <= |s| && r == s[|s| - |r|..]
    ensures r == [] || !IsJsWhitespace(r[0])
    ensures forall i :: 0 <= i < |s| - |r| ==> IsJsWhitespace(s[i])
  {
    if s != [] && IsJsWhitespace(s[0]) then TrimStart(s[1..]) else s
  }

  function TrimEnd(s: string): (r: string)
    ensures |r| <= |s| && r == s[..|r|]
    ensures r == [] || !IsJsWhitespace(r[|r| - 1])
    ensures forall i :: |r| <= i < |s| ==> IsJsWhitespace(s[i])
  {
    if s != [] && IsJsWhitespace(s[|s| - 1]) then TrimEnd(s[..|s| - 1]) else s
  }

  function Trim(s: string): string
  {
    TrimEnd(TrimStart(s))
  }

  /** Every character is white space. */
  predicate IsBlank(s: string)
  {
    forall i :: 0 <= i < |s| ==> IsJsWhitespace(s[i])
  }

  /** `s.trim()` is the (falsy) empty string exactly when `s` is blank. */
  lemma {:induction false} TrimEmptyIffBlank(s: string)
    ensures Trim(s) == [] <==> IsBlank(s)
  {
    var t := TrimStart(s);
    if Trim(s) != [] {
      var r := Trim(s);
      assert !IsJsWhitespace(r[0]);
      assert r[0] == t[0] == s[|s| - |t|];
    }
  }

  // ---------------------------------------------------------------------------
  // String.prototype.includes
  // ---------------------------------------------------------------------------

  /** `q` occurs in `s` starting at position `i`. */
  ghost predicate OccursAt(q: string, s: string, i: int)
  {
    0 <= i && i + |q| <= |s| && s[i..i + |q|] == q
  }

  /** `q` occurs in `s` at some position. */
  ghost predicate IsSubstring(q: string, s: string)
  {
    exists i :: OccursAt(q, s, i)
  }

  /** `s.includes(q)`, searching from the left. */
  function Includes(s: string, q: string): bool
    decreases |s|
  {
    if |q| <= |s| && s[..|q|] == q then true
    else if s == [] then false
    else Includes(s[1..], q)
  }

  /** A match the search reports is a real occurrence. */
  lemma {:induction false} IncludesSound(s: string, q: string)
    requires Includes(s, q)
    ensures IsSubstring(q, s)
    decreases |s|
  {
    if |q| <= |s| && s[..|q|] == q {
      assert OccursAt(q, s, 0);
    } else {
      IncludesSound(s[1..], q);
      var i :| OccursAt(q, s[1..], i);
      assert s[i + 1..i + 1 + |q|] == s[1..][i..i + |q|];
      assert OccursAt(q, s, i + 1);
    }
  }

  /** Every occurrence is found by the search. */
  lemma {:induction false} IncludesComplete(s: string, q: string, i: int)
    requires OccursAt(q, s, i)
    ensures Includes(s, q)
    decreases i
  {
    if i > 0 && !(|q| <= |s| && s[..|q|] == q) {
      assert s[1..][i - 1..i - 1 + |q|] == s[i..i + |q|];
      IncludesComplete(s[1..], q, i - 1);
    }
  }

  /** The left-to-right search finds `q` exactly when it occurs somewhere. */
  lemma IncludesIffSubstring(s: string, q: string)
    ensures Includes(s, q) <==> IsSubstring(q, s)
  {
    if Includes(s, q) {
      IncludesSound(s, q);
    }
    if IsSubstring(q, s) {
      var i :| OccursAt(q, s, i);
      IncludesComplete(s, q, i);
    }
  }

  // ---------------------------------------------------------------------------
  // Number.prototype.toString (integers, radix 10)
  // ---------------------------------------------------------------------------

  predicate IsDigit(c: char)
  {
    '0' <= c <= '9'
  }

  predicate AllDigits(s: string)
  {
    forall i :: 0 <= i < |s| ==> IsDigit(s[i])
  }

  function DigitChar(d: nat): (c: char)
    requires d < 10
    ensures IsDigit(c) && c as int - '0' as int == d
  {
    ('0' as int + d) as char
  }

  function NatToDigits(n: nat): (s: string)
    ensures |s| >= 1
    ensures AllDigits(s)
    decreases n
  {
    if n < 10 then [DigitChar(n)] else NatToDigits(n / 10) + [DigitChar(n % 10)]
  }

  /** `String(n)` for an integer `n`. */
  function IntToString(n: int): string
  {
    if n < 0 then "-" + NatToDigits(-n) else NatToDigits(n)
  }

  // ---------------------------------------------------------------------------
  // parseInt (radix 10)
  // ---------------------------------------------------------------------------

  /** The longest prefix of `s` made of decimal digits. */
  function DigitPrefix(s: string): (r: string)
    ensures r <= s
    ensures AllDigits(r)
    ensures |r| < |s| ==> !IsDigit(s[|r|])
  {
    if s != [] && IsDigit(s[0]) then [s[0]] + DigitPrefix(s[1..]) else []
  }

  function DigitValue(c: char): nat
    requires IsDigit(c)
  {
    c as int - '0' as int
  }

  function DigitsValue(ds: string): nat
    requires AllDigits(ds)
  {
    if ds == [] then 0
    else DigitsValue(ds[..|ds| - 1]) * 10 + DigitValue(ds[|ds| - 1])
  }

  /** `parseInt(s)`: skips leading white space, reads an optional sign and the
      longest run of decimal digits after it; `None` stands for NaN, the result
      when no digit follows the sign. */
  function ParseIntText(s: string): (r: Option<int>)
    ensures r.None? <==> DigitPrefix(SignFree(TrimStart(s))) == []
  {
    ParseSigned(TrimStart(s))
  }

  /** The same reading on text that starts with no white space. */
  function ParseSigned(t: string): (r: Option<int>)
    ensures r.None? <==> DigitPrefix(SignFree(t)) == []
  {
    var ds := DigitPrefix(SignFree(t));
    var magnitude: int := if ds == [] then 0 else DigitsValue(ds);
    if ds == [] then None
    else if t[0] == '-' then Some(-magnitude)
    else Some(magnitude)
  }

  /** The text after an optional leading `+` or `-`. */
  function SignFree(t: string): (r: string)
    ensures |r| <= |t|
  {
    if t != [] && (t[0] == '-' || t[0] == '+') then t[1..] else t
  }

  lemma {:induction false} DigitPrefixOfDigits(ds: string)
    requires AllDigits(ds)
    ensures DigitPrefix(ds) == ds
  {
    if ds != [] {
      DigitPrefixOfDigits(ds[1..]);
    }
  }

  lemma {:induction false} DigitsValueOfNat(n: nat)
    ensures DigitsValue(NatToDigits(n)) == n
    decreases n
  {
    if n >= 10 {
      DigitsValueOfNat(n / 10);
      var s := NatToDigits(n);
      assert s[..|s| - 1] == NatToDigits(n / 10);
    }
  }

  lemma TrimStartKeeps(s: string)
    requires s != [] && !IsJsWhitespace(s[0])
    ensures TrimStart(s) == s
  {
  }

  /** A run of digits parses to its value. */
  lemma ParseIntOfDigits(ds: string)
    requires ds != [] && AllDigits(ds)
    ensures ParseIntText(ds) == Some(DigitsValue(ds))
  {
    assert TrimStart(ds) == ds by {
      TrimStartKeeps(ds);
    }
    assert DigitPrefix(SignFree(ds)) == ds by {
      assert SignFree(ds) == ds;
      DigitPrefixOfDigits(ds);
    }
    ParseSignedUnsigned(ds, ds);
  }

  /** A minus sign and a run of digits parse to the negated value. */
  lemma ParseIntOfNegatedDigits(ds: string)
    requires ds != [] && AllDigits(ds)
    ensures var v: int := DigitsValue(ds); ParseIntText("-" + ds) == Some(-v)
  {
    var s := "-" + ds;
    MinusPrefixIsSign(ds);
    DigitPrefixOfDigits(ds);
    ParseSignedNegative(s, ds);
  }

  lemma ParseSignedUnsigned(t: string, ds: string)
    requires t != [] && t[0] != '-'
    requires ds != [] && AllDigits(ds)
    requires DigitPrefix(SignFree(t)) == ds
    ensures ParseSigned(t) == Some(DigitsValue(ds))
  {
  }

  lemma ParseSignedNegative(t: string, ds: string)
    requires t != [] && t[0] == '-'
    requires ds != [] && AllDigits(ds)
    requires DigitPrefix(SignFree(t)) == ds
    ensures var v: int := DigitsValue(ds); ParseSigned(t) == Some(-v)
  {
  }

  /** The minus sign is neither white space nor part of the digits. */
  lemma MinusPrefixIsSign(ds: string)
    ensures TrimStart("-" + ds) == "-" + ds
    ensures SignFree("-" + ds) == ds
  {
    var s := "-" + ds;
    TrimStartKeeps(s);
    assert s[1..] == ds;
  }

  /** Reading back the decimal text of an integer gives the integer:
      `parseInt(String(n)) == n`. */
  lemma ParseIntOfIntToString(n: int)
    ensures ParseIntText(IntToString(n)) == Some(n)
  {
    var m: nat := if n < 0 then -n else n;
    DigitsValueOfNat(m);
    if n < 0 {
      ParseIntOfNegatedDigits(NatToDigits(m));
    } else {
      ParseIntOfDigits(NatToDigits(m));
    }
  }

  // ---------------------------------------------------------------------------
  // Dynamically typed form values
  // ---------------------------------------------------------------------------

  /** The values a form field can hold: strings from text and number inputs,
      integers from initial state, booleans from checkboxes, a list of strings. */
  datatype JsValue = Undefined | Null | Bool(b: bool) | Num(n: int) | NaN | Str(s: string) | StrList(items: seq<string>)

  function Join(items: seq<string>): string
  {
    if items == [] then ""
    else if |items| == 1 then items[0]
    else items[0] + "," + Join(items[1..])
  }

  /** `String(v)` */
  function ToJsString(v: JsValue): string
  {
    match v
    case Undefined => "undefined"
    case Null => "null"
    case Bool(b) => if b then "true" else "false"
    case Num(n) => IntToString(n)
    case NaN => "NaN"
    case Str(s) => s
    case StrList(items) => Join(items)
  }

  /** `parseInt(v)`: the argument is converted to a string first. */
  function ParseInt(v: JsValue): (r: JsValue)
    ensures r.Num? || r.NaN?
  {
    match ParseIntText(ToJsString(v))
    case Some(n) => Num(n)
    case None => NaN
  }

  /** An integer survives parseInt unchanged. */
  lemma ParseIntOfNum(n: int)
    ensures ParseInt(Num(n)) == Num(n)
  {
    ParseIntOfIntToString(n);
  }

  /** undefined, null, booleans and NaN parse to NaN. */
  lemma ParseIntOfNonNumeric(v: JsValue)
    requires v.Undefined? || v.Null? || v.Bool? || v.NaN?
    ensures ParseInt(v) == NaN
  {
    var t := ToJsString(v);
    assert !IsJsWhitespace(t[0]) && !IsDigit(t[0]) && t[0] != '-' && t[0] != '+';
    assert TrimStart(t) == t;
  }

  /** A string that may be absent, used as a condition: absent and empty
      are falsy. */
  predicate Truthy(o: Option<string>)
  {
    o.Some? && o.value != ""
  }

  /** `o || fallback` for a string that may be absent. */
  function OrElse(o: Option<string>, fallback: string): (r: string)
    ensures Truthy(o) ==> r == o.value
    ensures !Truthy(o) ==> r == fallback
    ensures r == "" ==> fallback == ""
  {
    if Truthy(o) then o.value else fallback
  }

  /** A notification raised through the toast library. */
  datatype Toast = NoToast | SuccessToast(message: string) | ErrorToast(message: string)

  /** An exception thrown while a page renders: reading an unbound name, or
      reading a property of `undefined`. */
  datatype RenderError = ReferenceError(name: string) | TypeError(property: string)
}

=== FILE: menu.dfy ===
/** The sidebar of the dashboard layout: a fixed table of menu entries, each
    with the roles that see it, filtered by the signed-in user's role. */
module DashboardLayout {
  import opened JsSemantics
  import opened AfapRecord

  datatype MenuItem = MenuItem(caption: string, path: string, roles: seq<Role>)

  const MenuItems: seq<MenuItem> := [
    MenuItem("Inicio", "/dashboard", [Ciudadano, Inspector, Administrador]),
    MenuItem("Mis Solicitudes", "/mis-solicitudes", [Ciudadano]),
    MenuItem("Solicitudes", "/solicitudes", [Inspector, Administrador]),
    MenuItem("Inspecciones", "/inspecciones", [Inspector, Administrador]),
    MenuItem("Estadísticas", "/estadisticas", [Administrador])]

  /** `item.roles.includes(user?.role)`: no user (an undefined role) matches
      no entry, since no roles list holds `undefined`. */
  function VisibleTo(role: Option<Role>): MenuItem -> bool
  {
    (item: MenuItem) => role.Some? && role.value in item.roles
  }

  /** The entries the sidebar shows, in table order. */
  function VisibleMenuItems(role: Option<Role>): (r: seq<MenuItem>)
    ensures forall i :: 0 <= i < |r| ==> role.Some? && role.value in r[i].roles
    ensures IsSubsequence(r, MenuItems)
  {
    FilterIsSubsequence(MenuItems, VisibleTo(role));
    Filter(MenuItems, VisibleTo(role))
  }

  /** The visible menu holds exactly the entries whose roles contain the role. */
  lemma VisibleMenuExact(role: Option<Role>, item: MenuItem)
    ensures item in VisibleMenuItems(role) <==> item in MenuItems && role.Some? && role.value in item.roles
  {
    FilterMembership(MenuItems, VisibleTo(role), item);
  }

  function Captions(items: seq<MenuItem>): (r: seq<string>)
    ensures |r| == |items|
    ensures forall i :: 0 <= i < |r| ==> r[i] == items[i].caption
  {
    seq(|items|, i requires 0 <= i < |items| => items[i].caption)
  }

  /** The filter over the five-entry table, unrolled. */
  lemma VisibleMenuUnrolled(role: Option<Role>)
    ensures var m := MenuItems; var p := VisibleTo(role);
      VisibleMenuItems(role) == Kept(m[0], p) + Kept(m[1], p) + Kept(m[2], p) + Kept(m[3], p) + Kept(m[4], p)
  {
    FilterOfFive(MenuItems, VisibleTo(role));
  }

  /** A citizen sees "Inicio" and "Mis Solicitudes". */
  lemma CiudadanoMenu()
    ensures Captions(VisibleMenuItems(Some(Ciudadano))) == ["Inicio", "Mis Solicitudes"]
  {
    VisibleMenuUnrolled(Some(Ciudadano));
  }

  /** An inspector sees "Inicio", "Solicitudes" and "Inspecciones". */
  lemma InspectorMenu()
    ensures Captions(VisibleMenuItems(Some(Inspector))) == ["Inicio", "Solicitudes", "Inspecciones"]
  {
    VisibleMenuUnrolled(Some(Inspector));
  }

  /** An administrator sees every entry except "Mis Solicitudes". */
  lemma AdministradorMenu()
    ensures Captions(VisibleMenuItems(Some(Administrador))) ==
      ["Inicio", "Solicitudes", "Inspecciones", "Estadísticas"]
  {
    VisibleMenuUnrolled(Some(Administrador));
  }

  /** A missing or unknown role sees no entry. */
  lemma UnknownRoleMenu(role: Option<Role>)
    requires role.None? || role.value == OtherRole
    ensures VisibleMenuItems(role) == []
  {
    VisibleMenuUnrolled(role);
  }
}

=== FILE: nueva_solicitud.dfy ===
/** The four-step request form (NuevaSolicitudPage): a step counter kept
    between 1 and 4, a record of form fields updated one field at a time,
    the defaults the form starts from, and the record sent on submission,
    in which the worker and sanitary counts are coerced with `parseInt`. */
module NuevaSolicitud {
  import opened JsSemantics

  /** The form record: field name to value. */
  type FormData = map<string, JsValue>

  /** The signed-in user's profile fields the form is prefilled from. */
  datatype UserProfile = UserProfile(
    nombre: Option<string>, apellido: Option<string>, cuitCuil: Option<string>,
    telefono: Option<string>, email: Option<string>)

  const FirstStep := 1
  const LastStep := 4

  /** Reading a field; an absent one reads as `undefined`. */
  function Field(form: FormData, name: string): JsValue
  {
    if name in form then form[name] else Undefined
  }

  /** The profile fields the form copies. */
  datatype ProfileField = Nombre | Apellido | CuitCuil | Telefono | Email

  /** `user?.x`: undefined without a user. */
  function UserField(user: Option<UserProfile>, f: ProfileField): Option<string>
  {
    match user
    case None => None
    case Some(u) =>
      match f
      case Nombre => u.nombre
      case Apellido => u.apellido
      case CuitCuil => u.cuitCuil
      case Telefono => u.telefono
      case Email => u.email
  }

  /** `user?.x || ''`. */
  function Prefill(user: Option<UserProfile>, f: ProfileField): (r: JsValue)
    ensures r.Str?
    ensures user.None? ==> r == Str("")
    ensures user.Some? && Truthy(UserField(user, f)) ==> r == Str(UserField(user, f).value)
    ensures user.Some? && !Truthy(UserField(user, f)) ==> r == Str("")
  {
    Str(OrElse(UserField(user, f), ""))
  }

  /** The form field each profile field prefills. */
  function ApplicantKey(f: ProfileField): string
  {
    match f
    case Nombre => "solicitante_nombre"
    case Apellido => "solicitante_apellido"
    case CuitCuil => "solicitante_cuit_cuil"
    case Telefono => "solicitante_telefono"
    case Email => "solicitante_email"
  }

  /** The counts that are coerced with `parseInt` on submission. */
  const IntegerFields: set<string> := FixtureFields + {"cantidad_trabajadores"}

  /** The sanitary fixture counts, by sex. */
  const FixtureFields: set<string> := {
    "sanitarios_lavabos_m", "sanitarios_retretes_m",
    "sanitarios_lavabos_f", "sanitarios_retretes_f", "sanitarios_migitorios"}

  /** Every field the submission rewrites: the counts and the surface. */
  const CoercedFields: set<string> := IntegerFields + {"metros_cuadrados"}

  /** The record the form starts from. */
  function InitialForm(user: Option<UserProfile>): FormData
  {
    map[
      "titular_nombre" := Str(""),
      "titular_cuit" := Str(""),
      "cuenta_abl" := Str(""),
      "domicilio_calle" := Str(""),
      "domicilio_altura" := Str(""),
      "domicilio_piso" := Str(""),
      "domicilio_depto" := Str(""),
      "domicilio_local" := Str(""),
      "rubro_tipo" := Str(""),
      "rubro_subrubro" := Str(""),
      "rubro_descripcion" := Str(""),
      "metros_cuadrados" := Str(""),
      "techos_cielorasos" := Str(""),
      "pisos_material" := Str(""),
      "sanitarios_acceso_directo" := Bool(false),
      "sanitarios_antecamara" := Bool(false),
      "sanitarios_discapacitados" := Bool(false),
      "documentos_urls" := StrList([]),
      "domicilio_localidad" := Str("Buenos Aires"),
      "titular_tipo" := Str("fisica"),
      "tiene_sanitarios" := Bool(true),
      "sanitarios_lavabos_m" := Num(0),
      "sanitarios_retretes_m" := Num(0),
      "sanitarios_lavabos_f" := Num(0),
      "sanitarios_retretes_f" := Num(0),
      "sanitarios_migitorios" := Num(0),
      "cantidad_trabajadores" := Num(1),
      "solicitante_nombre" := Prefill(user, Nombre),
      "solicitante_apellido" := Prefill(user, Apellido),
      "solicitante_cuit_cuil" := Prefill(user, CuitCuil),
      "solicitante_telefono" := Prefill(user, Telefono),
      "solicitante_email" := Prefill(user, Email)]
  }

  /** The holder is a natural person and the locality Buenos Aires unless
      the applicant changes them. */
  lemma InitialFormDefaults(user: Option<UserProfile>)
    ensures Field(InitialForm(user), "titular_tipo") == Str("fisica")
    ensures Field(InitialForm(user), "domicilio_localidad") == Str("Buenos Aires")
    ensures Field(InitialForm(user), "documentos_urls") == StrList([])
    ensures Field(InitialForm(user), "tiene_sanitarios") == Bool(true)
  {
  }

  /** The form starts with one worker and no sanitary fixtures. */
  lemma InitialFormCounts(user: Option<UserProfile>)
    ensures Field(InitialForm(user), "cantidad_trabajadores") == Num(1)
    ensures forall k :: k in FixtureFields ==> Field(InitialForm(user), k) == Num(0)
  {
  }

  /** The applicant's fields copy the profile, and a missing profile value
      leaves its field empty. */
  lemma InitialFormPrefill(user: Option<UserProfile>, f: ProfileField)
    ensures user.Some? && Truthy(UserField(user, f)) ==>
      Field(InitialForm(user), ApplicantKey(f)) == Str(UserField(user, f).value)
    ensures user.Some? && !Truthy(UserField(user, f)) ==>
      Field(InitialForm(user), ApplicantKey(f)) == Str("")
  {
    assert Field(InitialForm(user), ApplicantKey(f)) == Prefill(user, f);
  }

  /** Without a signed-in user every applicant field starts empty. */
  lemma InitialFormWithoutUser(f: ProfileField)
    ensures Field(InitialForm(None), ApplicantKey(f)) == Str("")
  {
    assert Field(InitialForm(None), ApplicantKey(f)) == Prefill(None, f);
  }

  /** The record posted on submission: the form, with the surface replaced
      by its float parse `metros` (kept opaque) and each count by its
      integer parse. */
  function SubmitData(form: FormData, metros: JsValue): (r: FormData)
    ensures forall k :: k in r <==> k in form || k in CoercedFields
    ensures forall k :: k in form && k !in CoercedFields ==> r[k] == form[k]
    ensures r["metros_cuadrados"] == metros
    ensures forall k :: k in IntegerFields ==> r[k] == ParseInt(Field(form, k))
  {
    SurfaceIsNotCount();
    (form + ParsedCounts(form))["metros_cuadrados" := metros]
  }

  /** Each count of the form, read with `parseInt`. */
  function ParsedCounts(form: FormData): (r: FormData)
    ensures forall k :: k in r <==> k in IntegerFields
    ensures forall k :: k in IntegerFields ==> r[k] == ParseInt(Field(form, k))
  {
    map k | k in IntegerFields :: ParseInt(Field(form, k))
  }

  lemma SurfaceIsNotCount()
    ensures "metros_cuadrados" !in IntegerFields
  {
  }

  /** Every count in a submitted record is a number or NaN. */
  lemma SubmittedCountsAreNumeric(form: FormData, metros: JsValue, k: string)
    requires k in IntegerFields
    ensures SubmitData(form, metros)[k].Num? || SubmitData(form, metros)[k].NaN?
  {
  }

  /** Parsing an already parsed value changes nothing. */
  lemma ParseIntIdempotent(v: JsValue)
    ensures ParseInt(ParseInt(v)) == ParseInt(v)
  {
    var p := ParseInt(v);
    if p.Num? {
      ParseIntOfNum(p.n);
    } else {
      ParseIntOfNonNumeric(p);
    }
  }

  /** Submitting the default form sends the counts unchanged, as numbers. */
  lemma SubmitInitialForm(user: Option<UserProfile>, metros: JsValue)
    ensures var sent := SubmitData(InitialForm(user), metros);
      sent["cantidad_trabajadores"] == Num(1) &&
      forall k :: k in FixtureFields ==> sent[k] == Num(0)
  {
    InitialFormCounts(user);
    ParseIntOfNum(0);
    ParseIntOfNum(1);
  }

  /** Coercing a submitted record a second time changes no field. */
  lemma SubmitDataIdempotent(form: FormData, metros: JsValue, k: string)
    requires k in SubmitData(form, metros)
    ensures k in SubmitData(SubmitData(form, metros), metros)
    ensures SubmitData(SubmitData(form, metros), metros)[k] == SubmitData(form, metros)[k]
  {
    var once := SubmitData(form, metros);
    if k in IntegerFields {
      assert Field(once, k) == ParseInt(Field(form, k));
      ParseIntIdempotent(Field(form, k));
    }
  }

  /** `Math.min(s + 1, 4)`. */
  function NextStepOf(s: int): (r: int)
    ensures r <= LastStep
    ensures s < LastStep ==> r == s + 1
    ensures s >= LastStep ==> r == LastStep
  {
    if s + 1 < LastStep then s + 1 else LastStep
  }

  /** `Math.max(s - 1, 1)`. */
  function PrevStepOf(s: int): (r: int)
    ensures r >= FirstStep
    ensures s > FirstStep ==> r == s - 1
    ensures s <= FirstStep ==> r == FirstStep
  {
    if s - 1 > FirstStep then s - 1 else FirstStep
  }

  datatype Move = Next | Prev

  /** The step reached after pressing the buttons in `moves`. */
  function Walk(s: int, moves: seq<Move>): int
    decreases moves
  {
    if moves == [] then s
    else Walk(if moves[0] == Next then NextStepOf(s) else PrevStepOf(s), moves[1..])
  }

  /** Whatever the buttons pressed, the step stays between 1 and 4. */
  lemma {:induction false} WalkStaysInRange(s: int, moves: seq<Move>)
    requires FirstStep <= s <= LastStep
    ensures FirstStep <= Walk(s, moves) <= LastStep
    decreases moves
  {
    if moves != [] {
      WalkStaysInRange(if moves[0] == Next then NextStepOf(s) else PrevStepOf(s), moves[1..]);
    }
  }

  /** Pressing "Siguiente" n times from any step s reaches step min(s + n, 4). */
  lemma {:induction false} ForwardWalk(s: int, n: nat)
    requires FirstStep <= s <= LastStep
    ensures Walk(s, seq(n, _ => Next)) == if s + n < LastStep then s + n else LastStep
    decreases n
  {
    if n > 0 {
      assert seq(n, _ => Next)[1..] == seq(n - 1, _ => Next);
      ForwardWalk(NextStepOf(s), n - 1);
    }
  }

  /** Going forward then back returns to the same step below the last. */
  lemma NextThenPrev(s: int)
    requires FirstStep <= s < LastStep
    ensures PrevStepOf(NextStepOf(s)) == s
  {
  }

  datatype Stepper = Stepper(circles: seq<bool>, connectors: seq<bool>, showsSubmit: bool, prevDisabled: bool)

  /** The progress bar and navigation buttons drawn for `step`: circle k is
      lit when the step has reached k, connector k when it has passed k; the
      submit button replaces "Siguiente" from step 4 on; "Anterior" is
      disabled on step 1. */
  function StepperView(step: int): (v: Stepper)
    ensures |v.circles| == 4 && |v.connectors| == 3
    ensures forall i :: 0 <= i < 4 ==> (v.circles[i] <==> step >= i + 1)
    ensures forall i :: 0 <= i < 3 ==> (v.connectors[i] <==> step > i + 1)
    ensures v.showsSubmit <==> step >= LastStep
    ensures v.prevDisabled <==> step == FirstStep
  {
    Stepper(
      seq(4, i requires 0 <= i < 4 => step >= i + 1),
      seq(3, i requires 0 <= i < 3 => step > i + 1),
      !(step < 4),
      step == 1)
  }

  /** On each of the four steps exactly `step` circles and `step - 1`
      connectors are lit, and the form can be submitted only on the last. */
  lemma StepperProgress(step: int)
    requires FirstStep <= step <= LastStep
    ensures var v := StepperView(step);
      Count(v.circles, (b: bool) => b) == step &&
      Count(v.connectors, (b: bool) => b) == step - 1 &&
      (v.showsSubmit <==> step == LastStep)
  {
    var v := StepperView(step);
    var lit := (b: bool) => b;
    LitPrefixCount(v.circles, step);
    LitPrefixCount(v.connectors, step - 1);
  }

  /** A row of lights whose first `k` are lit, and no other, has `k` lit. */
  lemma {:induction false} LitPrefixCount(bs: seq<bool>, k: nat)
    requires k <= |bs|
    requires forall i :: 0 <= i < |bs| ==> (bs[i] <==> i < k)
    ensures Count(bs, (b: bool) => b) == k
  {
    if bs != [] {
      LitPrefixCount(bs[1..], if k == 0 then 0 else k - 1);
    }
  }

  /** The form page: the current step, the field record and the submission
      flag. */
  class NuevaSolicitudPage {
    var step: int
    var loading: bool
    var formData: FormData

    /** The step stays within 1..4: the constructor starts at step 1 and only
        the two clamped step moves change it. */
    ghost predicate Valid()
      reads this
    {
      FirstStep <= step <= LastStep
    }

    constructor(user: Option<UserProfile>)
      ensures Valid()
      ensures step == FirstStep && !loading && formData == InitialForm(user)
    {
      step := FirstStep;
      loading := false;
      formData := InitialForm(user);
    }

    method NextStep()
      requires Valid()
      modifies this`step
      ensures Valid()
      ensures step == NextStepOf(old(step))
    {
      step := NextStepOf(step);
    }

    method PrevStep()
      requires Valid()
      modifies this`step
      ensures Valid()
      ensures step == PrevStepOf(old(step))
    {
      step := PrevStepOf(step);
    }

    /** Sets one field and leaves every other field as it was. */
    method HandleChange(field: string, value: JsValue)
      modifies this`formData
      ensures formData == old(formData)[field := value]
      ensures formData.Keys == old(formData).Keys + {field}
      ensures forall k :: k in old(formData) && k != field ==> formData[k] == old(formData)[k]
    {
      formData := formData[field := value];
    }

    /** Posts the coerced record. `metros` is the float parse of the surface;
        `outcome` is the server's answer, with its `detail` on failure. On
        success the page moves to the applicant's request list. */
    method HandleSubmit(metros: JsValue, outcome: Result<(), Option<string>>)
      returns (sent: FormData, destination: Option<string>, toast: Toast)
      modifies this`loading
      ensures sent == SubmitData(formData, metros)
      ensures !loading
      ensures outcome.Ok? ==> (destination == Some("/mis-solicitudes") &&
        toast == SuccessToast("¡Solicitud Habilitación Precaria creada exitosamente!"))
      ensures outcome.Err? ==> (destination == None &&
        toast == ErrorToast(OrElse(outcome.error, "Error al crear la solicitud")))
    {
      loading := true;
      sent := SubmitData(formData, metros);
      if outcome.Ok? {
        toast := SuccessToast("¡Solicitud Habilitación Precaria creada exitosamente!");
        destination := Some("/mis-solicitudes");
      } else {
        toast := ErrorToast(OrElse(outcome.error, "Error al crear la solicitud"));
        destination := None;
      }
      loading := false;
    }
  }
}

=== FILE: register.dfy ===
/** The sign-up page: a record of text fields, a gate that refuses to submit
    when the two passwords differ, and the payload handed to the
    authentication provider, which is the record without the confirmation. */
module Register {
  import opened JsSemantics

  type RegisterForm = map<string, string>

  /** Reading a field; an absent one reads as `undefined` (`None`). */
  function Value(form: RegisterForm, name: string): Option<string>
  {
    if name in form then Some(form[name]) else None
  }

  /** The record the page starts from: every field empty, role `ciudadano`. */
  const InitialRegisterForm: RegisterForm := map[
    "email" := "", "cuit_cuil" := "", "nombre" := "", "apellido" := "",
    "telefono" := "", "password" := "", "confirmPassword" := "", "role" := "ciudadano"]

  /** The payload for `register`, or `None` when `password` and
      `confirmPassword` differ and nothing is sent. */
  function RegisterPayload(form: RegisterForm): (r: Option<RegisterForm>)
    ensures r.None? <==> Value(form, "password") != Value(form, "confirmPassword")
    ensures r.Some? ==> r.value.Keys == form.Keys - {"confirmPassword"}
    ensures r.Some? ==> forall k :: k in r.value ==> r.value[k] == form[k]
  {
    if Value(form, "password") != Value(form, "confirmPassword") then None
    else Some(map k | k in form && k != "confirmPassword" :: form[k])
  }

  /** The payload loses nothing but the confirmation: putting the password
      back under `confirmPassword` rebuilds the form. */
  lemma PayloadRestoresForm(form: RegisterForm)
    requires "password" in form && "confirmPassword" in form
    requires form["password"] == form["confirmPassword"]
    ensures RegisterPayload(form).Some?
    ensures RegisterPayload(form).value["confirmPassword" := form["password"]] == form
  {
    var payload := RegisterPayload(form).value;
    assert payload["confirmPassword" := form["password"]].Keys == form.Keys;
  }

  /** The untouched form can be submitted, and registers a citizen. */
  lemma InitialFormPayload()
    ensures RegisterPayload(InitialRegisterForm).Some?
    ensures var p := RegisterPayload(InitialRegisterForm).value;
      "role" in p && p["role"] == "ciudadano" && "confirmPassword" !in p
  {
  }

  /** What the authentication provider answers. */
  datatype RegisterResult = Success | Failure(error: string)

  /** The page state: the form record and the busy flag. */
  class RegisterPage {
    var formData: RegisterForm
    var isLoading: bool

    constructor()
      ensures formData == InitialRegisterForm && !isLoading
    {
      formData := InitialRegisterForm;
      isLoading := false;
    }

    /** Sets one field and leaves every other field as it was. */
    method HandleChange(field: string, value: string)
      modifies this`formData
      ensures formData == old(formData)[field := value]
      ensures forall k :: k in old(formData) && k != field ==> formData[k] == old(formData)[k]
    {
      formData := formData[field := value];
    }

    /** `handleSubmit`. `register` stands for the provider's answer to a
        payload. `sent` is the payload handed to it, `None` when it is not
        called; on success the page moves to the dashboard. */
    method HandleSubmit(register: RegisterForm -> RegisterResult)
      returns (sent: Option<RegisterForm>, destination: Option<string>, toast: Toast)
      modifies this`isLoading
      ensures sent == RegisterPayload(formData)
      ensures sent.None? ==> (destination == None && isLoading == old(isLoading) &&
        toast == ErrorToast("Las contraseñas no coinciden"))
      ensures sent.Some? && register(sent.value).Success? ==> (!isLoading &&
        destination == Some("/dashboard") && toast == SuccessToast("¡Cuenta creada exitosamente!"))
      ensures sent.Some? && register(sent.value).Failure? ==> (!isLoading &&
        destination == None && toast == ErrorToast(register(sent.value).error))
    {
      sent := RegisterPayload(formData);
      if sent.None? {
        toast := ErrorToast("Las contraseñas no coinciden");
        destination := None;
        return;
      }
      isLoading := true;
      var result := register(sent.value);
      if result.Success? {
        toast := SuccessToast("¡Cuenta creada exitosamente!");
        destination := Some("/dashboard");
      } else {
        toast := ErrorToast(result.error);
        destination := None;
      }
      isLoading := false;
    }
  }
}

=== FILE: routes.dfy ===
/** The route table of the application: each path, whether it is public,
    open to any signed-in user, or limited to a list of roles, and the
    catch-all that sends every other path to the landing page. */
module AppRoutes {
  import opened JsSemantics
  import opened AfapRecord
  import opened DashboardLayout

  /** What the table declares for a route. `AnyUser` is a protected route
      without `allowedRoles`. */
  datatype Access = Public | AnyUser | RolesOnly(roles: seq<Role>)

  /** A literal path, or a prefix followed by one `:param` segment. */
  datatype Pattern = Exact(path: string) | WithParam(prefix: string)

  datatype Route = Route(pattern: Pattern, access: Access)

  datatype Resolution = Render(route: Route) | RedirectHome

  const CertificatePrefix := "/verificar-certificado/"

  const Routes: seq<Route> := [
    Route(Exact("/"), Public),
    Route(Exact("/login"), Public),
    Route(Exact("/register"), Public),
    Route(WithParam(CertificatePrefix), Public),
    Route(Exact("/dashboard"), AnyUser),
    Route(Exact("/nueva-solicitud"), RolesOnly([Ciudadano])),
    Route(Exact("/mis-solicitudes"), RolesOnly([Ciudadano])),
    Route(Exact("/solicitudes"), RolesOnly([Inspector, Administrador])),
    Route(Exact("/inspecciones"), RolesOnly([Inspector, Administrador])),
    Route(Exact("/estadisticas"), RolesOnly([Administrador]))]

  /** The prefix followed by one non-empty segment. */
  predicate IsParamPath(prefix: string, path: string)
  {
    |path| > |prefix| && path[..|prefix|] == prefix && '/' !in path[|prefix|..]
  }

  /** A path the `:afapId` route matches. */
  predicate IsCertificatePath(path: string)
  {
    IsParamPath(CertificatePrefix, path)
  }

  predicate Matches(pattern: Pattern, path: string)
  {
    match pattern
    case Exact(p) => path == p
    case WithParam(prefix) => IsParamPath(prefix, path)
  }

  /** The first route of `routes` whose pattern matches `path`, or the
      redirect to "/" when none does. */
  function FirstMatch(routes: seq<Route>, path: string): (r: Resolution)
    ensures r.Render? ==> r.route in routes && Matches(r.route.pattern, path)
    ensures r.RedirectHome? <==> forall i :: 0 <= i < |routes| ==> !Matches(routes[i].pattern, path)
  {
    if routes == [] then RedirectHome
    else if Matches(routes[0].pattern, path) then Render(routes[0])
    else FirstMatch(routes[1..], path)
  }

  /** The route rendered is the first in the table that matches: every
      route before it fails to match. */
  lemma {:induction false} FirstMatchIsFirst(routes: seq<Route>, path: string)
    ensures FirstMatch(routes, path).Render? ==>
      exists i :: 0 <= i < |routes| && routes[i] == FirstMatch(routes, path).route &&
        Matches(routes[i].pattern, path) &&
        forall j :: 0 <= j < i ==> !Matches(routes[j].pattern, path)
  {
    if routes != [] && !Matches(routes[0].pattern, path) {
      FirstMatchIsFirst(routes[1..], path);
      if FirstMatch(routes, path).Render? {
        var i :| 0 <= i < |routes[1..]| && routes[1..][i] == FirstMatch(routes, path).route &&
          Matches(routes[1..][i].pattern, path) &&
          forall j :: 0 <= j < i ==> !Matches(routes[1..][j].pattern, path);
        assert routes[i + 1] == routes[1..][i];
        forall j | 0 <= j < i + 1
          ensures !Matches(routes[j].pattern, path)
        {
          if j > 0 {
            assert routes[j] == routes[1..][j - 1];
          }
        }
      }
    } else if routes != [] {
      assert routes[0] == FirstMatch(routes, path).route;
    }
  }

  function Resolve(path: string): (r: Resolution)
    ensures r.Render? ==> r.route in Routes && Matches(r.route.pattern, path)
    ensures r.RedirectHome? <==> forall i :: 0 <= i < |Routes| ==> !Matches(Routes[i].pattern, path)
  {
    FirstMatch(Routes, path)
  }

  /** No path matches two routes, so the table's order does not decide
      which page renders. */
  lemma RoutesDisjoint(path: string, i: int, j: int)
    requires 0 <= i < j < |Routes|
    ensures !(Matches(Routes[i].pattern, path) && Matches(Routes[j].pattern, path))
  {
  }

  /** The route a static path resolves to is the table entry for it. */
  lemma ResolveStatic(i: int)
    requires 0 <= i < |Routes| && i != 3
    ensures Resolve(Routes[i].pattern.path) == Render(Routes[i])
  {
    var path := Routes[i].pattern.path;
    assert Matches(Routes[i].pattern, path);
    var r := Resolve(path);
    assert r.Render?;
    var j :| 0 <= j < |Routes| && Routes[j] == r.route;
    if j < i {
      RoutesDisjoint(path, j, i);
    } else if i < j {
      RoutesDisjoint(path, i, j);
    }
  }

  /** Whether the declared access admits a visitor with this role. */
  predicate Admits(access: Access, role: Option<Role>)
  {
    match access
    case Public => true
    case AnyUser => role.Some?
    case RolesOnly(roles) => role.Some? && role.value in roles
  }

  /** The landing, login and registration pages and every certificate link
      are public. */
  lemma PublicPaths(path: string)
    requires path in {"/", "/login", "/register"} || IsCertificatePath(path)
    ensures Resolve(path).Render? && Resolve(path).route.access == Public
  {
    if path == "/" { ResolveStatic(0); }
    else if path == "/login" { ResolveStatic(1); }
    else if path == "/register" { ResolveStatic(2); }
    else {
      assert Matches(Routes[3].pattern, path);
      var j :| 0 <= j < |Routes| && Routes[j] == Resolve(path).route;
      if j != 3 {
        RoutesDisjoint(path, if j < 3 then j else 3, if j < 3 then 3 else j);
      }
    }
  }

  /** The dashboard admits every signed-in user; the other protected pages
      admit exactly the roles listed for them. */
  lemma ProtectedPaths()
    ensures Resolve("/dashboard").Render? && Resolve("/dashboard").route.access == AnyUser
    ensures Resolve("/nueva-solicitud").Render? && Resolve("/nueva-solicitud").route.access == RolesOnly([Ciudadano])
    ensures Resolve("/mis-solicitudes").Render? && Resolve("/mis-solicitudes").route.access == RolesOnly([Ciudadano])
    ensures Resolve("/solicitudes").Render? &&
      Resolve("/solicitudes").route.access == RolesOnly([Inspector, Administrador])
    ensures Resolve("/inspecciones").Render? &&
      Resolve("/inspecciones").route.access == RolesOnly([Inspector, Administrador])
    ensures Resolve("/estadisticas").Render? && Resolve("/estadisticas").route.access == RolesOnly([Administrador])
  {
    ResolveStatic(4);
    ResolveStatic(5);
    ResolveStatic(6);
    ResolveStatic(7);
    ResolveStatic(8);
    ResolveStatic(9);
  }

  /** Any path outside the table redirects to "/". */
  lemma UnknownPathRedirects(path: string)
    requires !IsCertificatePath(path)
    requires forall i :: 0 <= i < |Routes| && i != 3 ==> path != Routes[i].pattern.path
    ensures Resolve(path) == RedirectHome
  {
  }

  /** The sidebar and the route table agree: for each of the three roles, a
      menu entry is shown exactly when its page admits that role. */
  lemma MenuAgreesWithRoutes(k: int, role: Role)
    requires 0 <= k < |MenuItems|
    requires role != OtherRole
    ensures var target := Resolve(MenuItems[k].path);
      target.Render? && (role in MenuItems[k].roles <==> Admits(target.route.access, Some(role)))
  {
    var item := MenuItems[k];
    var route := Routes[if k == 0 then 4 else k + 5];
    assert route.pattern == Exact(item.path);
    ResolveStatic(if k == 0 then 4 else k + 5);
    assert Resolve(item.path) == Render(route);
  }

  /** Where the two tables part: a signed-in user with a role the pages do
      not know may open the dashboard, whose route admits any user, but the
      sidebar shows that user no "Inicio" entry. */
  lemma OtherRoleDashboardWithoutMenu()
    ensures Resolve(MenuItems[0].path).Render?
    ensures Admits(Resolve(MenuItems[0].path).route.access, Some(OtherRole))
    ensures MenuItems[0] !in VisibleMenuItems(Some(OtherRole))
  {
    ResolveStatic(4);
    UnknownRoleMenu(Some(OtherRole));
  }

  /** Every protected page but the request form has a sidebar entry. */
  lemma MenuCoversProtectedRoutes(i: int)
    requires 0 <= i < |Routes| && Routes[i].access != Public
    requires Routes[i].pattern != Exact("/nueva-solicitud")
    ensures exists k :: 0 <= k < |MenuItems| && Routes[i].pattern == Exact(MenuItems[k].path)
  {
    var k := i - 4 - (if i >= 6 then 1 else 0);
    assert Routes[i].pattern == Exact(MenuItems[k].path);
  }
}

=== FILE: solicitudes.dfy ===
/** The operators' request list (SolicitudesPage): a status filter, a free-text
    search and a sort applied in that order to the loaded requests, the
    per-status counters shown on the filter buttons, the sort toggle and the
    actions of a request card. */
module Solicitudes {
  import opened JsSemantics
  import opened AfapRecord

  // ---------------------------------------------------------------------------
  // Stage 1: status filter
  // ---------------------------------------------------------------------------

  /** The filter callback `x => x.estado === e`. */
  function EstadoIs(e: string): Afap -> bool
  {
    (a: Afap) => a.estado == e
  }

  /** `filter !== 'all' ? result.filter(x => x.estado === filter) : result`.
      The source's callback names its parameter `habilitacion_precaria` but
      reads `afap`; this is the evidently intended callback (see
      QueryAsWritten for the code as it stands). */
  function StatusStage(afaps: seq<Afap>, filter: string): seq<Afap>
  {
    if filter != "all" then Filter(afaps, EstadoIs(filter)) else afaps
  }

  /** `'all'` keeps every record; any other filter keeps exactly the records
      in that state, in their order. */
  lemma StatusStageKeeps(afaps: seq<Afap>, filter: string)
    ensures filter == "all" ==> StatusStage(afaps, filter) == afaps
    ensures filter != "all" ==>
      forall a :: a in StatusStage(afaps, filter) <==> a in afaps && a.estado == filter
    ensures IsSubsequence(StatusStage(afaps, filter), afaps)
  {
    if filter != "all" {
      forall a ensures a in StatusStage(afaps, filter) <==> a in afaps && a.estado == filter {
        FilterMembership(afaps, EstadoIs(filter), a);
      }
      FilterIsSubsequence(afaps, EstadoIs(filter));
    } else {
      SubsequenceReflexive(afaps);
    }
  }

  // ---------------------------------------------------------------------------
  // Stage 2: search
  // ---------------------------------------------------------------------------

  /** `x?.toLowerCase()` */
  function LowerOpt(o: Option<string>): Option<string>
  {
    match o
    case None => None
    case Some(s) => Some(ToLowerCase(s))
  }

  /** `x?.includes(q)`: an absent field never matches. */
  function OptIncludes(o: Option<string>, q: string): bool
  {
    o.Some? && Includes(o.value, q)
  }

  /** The nine texts the search looks at, as the search sees them: the request
      number as decimal text, the two tax ids as stored, the six other texts
      lower-cased. */
  function SearchTexts(a: Afap): (t: seq<Option<string>>)
    ensures |t| == 9
  {
    [Some(IntToString(a.numeroAfap)),
     LowerOpt(a.solicitanteNombre), LowerOpt(a.solicitanteApellido), a.solicitanteCuitCuil,
     LowerOpt(a.titularNombre), a.titularCuit,
     LowerOpt(a.domicilioCalle), LowerOpt(a.domicilioLocalidad), LowerOpt(a.rubroTipo)]
  }

  /** The search callback: the disjunction of nine `includes` tests. */
  function MatchesQuery(a: Afap, query: string): bool
  {
    Includes(IntToString(a.numeroAfap), query) ||
    OptIncludes(LowerOpt(a.solicitanteNombre), query) ||
    OptIncludes(LowerOpt(a.solicitanteApellido), query) ||
    OptIncludes(a.solicitanteCuitCuil, query) ||
    OptIncludes(LowerOpt(a.titularNombre), query) ||
    OptIncludes(a.titularCuit, query) ||
    OptIncludes(LowerOpt(a.domicilioCalle), query) ||
    OptIncludes(LowerOpt(a.domicilioLocalidad), query) ||
    OptIncludes(LowerOpt(a.rubroTipo), query)
  }

  /** A record matches exactly when the query occurs in one of its nine
      search texts. */
  lemma MatchesQueryIff(a: Afap, query: string)
    ensures MatchesQuery(a, query) <==>
      exists k :: 0 <= k < 9 && SearchTexts(a)[k].Some? && IsSubstring(query, SearchTexts(a)[k].value)
  {
    var t := SearchTexts(a);
    if MatchesQuery(a, query) {
      var k :=
        if OptIncludes(t[0], query) then 0 else if OptIncludes(t[1], query) then 1
        else if OptIncludes(t[2], query) then 2 else if OptIncludes(t[3], query) then 3
        else if OptIncludes(t[4], query) then 4 else if OptIncludes(t[5], query) then 5
        else if OptIncludes(t[6], query) then 6 else if OptIncludes(t[7], query) then 7 else 8;
      assert OptIncludes(t[k], query);
    } else {
      forall k | 0 <= k < 9 ensures !OptIncludes(t[k], query) {
        assert k == 0 || k == 1 || k == 2 || k == 3 || k == 4 || k == 5 || k == 6 || k == 7 || k == 8;
      }
    }
    forall k | 0 <= k < 9
      ensures OptIncludes(t[k], query) <==> t[k].Some? && IsSubstring(query, t[k].value)
    {
      if t[k].Some? {
        IncludesIffSubstring(t[k].value, query);
      }
    }
  }

  /** `searchQuery.trim() ? result.filter(...) : result`, matching against
      the lower-cased but untrimmed query. */
  function SearchStage(afaps: seq<Afap>, searchQuery: string): seq<Afap>
  {
    if Trim(searchQuery) != [] then
      var query := ToLowerCase(searchQuery);
      Filter(afaps, (a: Afap) => MatchesQuery(a, query))
    else afaps
  }

  /** A blank query leaves the list as it is; otherwise a record stays exactly
      when the lower-cased query occurs in one of its search texts. */
  lemma SearchStageKeeps(afaps: seq<Afap>, searchQuery: string)
    ensures IsBlank(searchQuery) ==> SearchStage(afaps, searchQuery) == afaps
    ensures !IsBlank(searchQuery) ==>
      forall a :: a in SearchStage(afaps, searchQuery) <==>
        a in afaps && MatchesQuery(a, ToLowerCase(searchQuery))
    ensures IsSubsequence(SearchStage(afaps, searchQuery), afaps)
  {
    TrimEmptyIffBlank(searchQuery);
    if !IsBlank(searchQuery) {
      var query := ToLowerCase(searchQuery);
      forall a ensures a in SearchStage(afaps, searchQuery) <==> a in afaps && MatchesQuery(a, query) {
        FilterMembership(afaps, (a: Afap) => MatchesQuery(a, query), a);
      }
      FilterIsSubsequence(afaps, (a: Afap) => MatchesQuery(a, query));
    } else {
      SubsequenceReflexive(afaps);
    }
  }

  /** Both filtering stages, in order. */
  function Query(afaps: seq<Afap>, filter: string, searchQuery: string): seq<Afap>
  {
    SearchStage(StatusStage(afaps, filter), searchQuery)
  }

  /** The two stages only drop records: what remains is a subsequence of the
      loaded list, so "Mostrando N de M" has N <= M. */
  lemma QueryIsSubsequence(afaps: seq<Afap>, filter: string, searchQuery: string)
    ensures IsSubsequence(Query(afaps, filter, searchQuery), afaps)
    ensures |Query(afaps, filter, searchQuery)| <= |afaps|
  {
    var stage := StatusStage(afaps, filter);
    StatusStageKeeps(afaps, filter);
    SearchStageKeeps(stage, searchQuery);
    SubsequenceTransitive(Query(afaps, filter, searchQuery), stage, afaps);
    SubsequenceLength(Query(afaps, filter, searchQuery), afaps);
  }

  // ---------------------------------------------------------------------------
  // Stage 3: sort
  // ---------------------------------------------------------------------------

  datatype SortKey = Fecha | Numero | Nombre

  datatype SortOrder = Asc | Desc

  /** Template-literal text of an optional field: an absent one reads "undefined". */
  function TemplateText(o: Option<string>): string
  {
    if o.Some? then o.value else "undefined"
  }

  /** `${solicitante_nombre} ${solicitante_apellido}`.toLowerCase() */
  function NameKey(a: Afap): string
  {
    ToLowerCase(TemplateText(a.solicitanteNombre) + " " + TemplateText(a.solicitanteApellido))
  }

  /** `localeCompare` is not modelled; it is passed in and taken to be a total
      preorder: the sign flips when the arguments swap, and "not after" is
      transitive. */
  ghost predicate IsLocaleOrder(lc: (string, string) -> int)
  {
    (forall x, y :: lc(x, y) > 0 <==> lc(y, x) < 0) &&
    (forall x, y, z :: lc(x, y) <= 0 && lc(y, z) <= 0 ==> lc(x, z) <= 0)
  }

  /** The comparator handed to `result.sort`: the column's comparison, with
      its sign flipped unless the order is ascending. */
  function Compare(a: Afap, b: Afap, column: SortKey, order: SortOrder, lc: (string, string) -> int): int
  {
    var comparison :=
      match column
      case Fecha => a.fechaSolicitud - b.fechaSolicitud
      case Numero => a.numeroAfap - b.numeroAfap
      case Nombre => lc(NameKey(a), NameKey(b));
    if order == Asc then comparison else -comparison
  }

  lemma CompareAntisymmetric(a: Afap, b: Afap, column: SortKey, order: SortOrder, lc: (string, string) -> int)
    requires IsLocaleOrder(lc)
    ensures Compare(a, b, column, order, lc) > 0 ==> Compare(b, a, column, order, lc) < 0
  {
  }

  lemma CompareTransitive(a: Afap, b: Afap, c: Afap, column: SortKey, order: SortOrder, lc: (string, string) -> int)
    requires IsLocaleOrder(lc)
    requires Compare(a, b, column, order, lc) <= 0 && Compare(b, c, column, order, lc) <= 0
    ensures Compare(a, c, column, order, lc) <= 0
  {
    if column == Nombre && order == Desc {
      var x, y, z := NameKey(a), NameKey(b), NameKey(c);
      assert lc(y, x) <= 0 && lc(z, y) <= 0;
    }
  }

  /** The comparator as the function value handed to `result.sort`. */
  function Comparator(column: SortKey, order: SortOrder, lc: (string, string) -> int): (Afap, Afap) -> int
  {
    (x: Afap, y: Afap) => Compare(x, y, column, order, lc)
  }

  /** When `x` goes after `y`, `y` goes before `x`. */
  ghost predicate Antisymmetric(cmp: (Afap, Afap) -> int)
  {
    forall x, y :: cmp(x, y) > 0 ==> cmp(y, x) < 0
  }

  /** "Not after" is transitive. */
  ghost predicate Transitive(cmp: (Afap, Afap) -> int)
  {
    forall x, y, z :: cmp(x, y) <= 0 && cmp(y, z) <= 0 ==> cmp(x, z) <= 0
  }

  /** Every column and order gives a comparator the sort can rely on. */
  lemma ComparatorIsConsistent(column: SortKey, order: SortOrder, lc: (string, string) -> int)
    requires IsLocaleOrder(lc)
    ensures Antisymmetric(Comparator(column, order, lc))
    ensures Transitive(Comparator(column, order, lc))
  {
    var cmp := Comparator(column, order, lc);
    forall x, y
      ensures cmp(x, y) > 0 ==> cmp(y, x) < 0
    {
      CompareAntisymmetric(x, y, column, order, lc);
    }
    forall x, y, z | cmp(x, y) <= 0 && cmp(y, z) <= 0
      ensures cmp(x, z) <= 0
    {
      CompareTransitive(x, y, z, column, order, lc);
    }
  }

  /** Every pair of records is in comparator order. */
  ghost predicate SortedBy(s: seq<Afap>, cmp: (Afap, Afap) -> int)
  {
    forall i, j :: 0 <= i < j < |s| ==> cmp(s[i], s[j]) <= 0
  }

  /** Neighbours in comparator order. */
  ghost predicate NeighboursSortedBy(s: seq<Afap>, cmp: (Afap, Afap) -> int)
  {
    forall k :: 0 < k < |s| ==> cmp(s[k - 1], s[k]) <= 0
  }

  /** Sorted by a column in an order. */
  ghost predicate Sorted(s: seq<Afap>, column: SortKey, order: SortOrder, lc: (string, string) -> int)
  {
    SortedBy(s, Comparator(column, order, lc))
  }

  lemma {:induction false} NeighboursSortedIsSorted(s: seq<Afap>, cmp: (Afap, Afap) -> int)
    requires Transitive(cmp)
    requires NeighboursSortedBy(s, cmp)
    ensures SortedBy(s, cmp)
  {
    forall i, j | 0 <= i < j < |s|
      ensures cmp(s[i], s[j]) <= 0
    {
      var k := i + 1;
      while k < j
        invariant i < k <= j
        invariant cmp(s[i], s[k]) <= 0
      {
        assert cmp(s[k], s[k + 1]) <= 0;
        k := k + 1;
      }
    }
  }

  /** Sorted by number ascending means non-decreasing numbers; descending,
      non-increasing ones, since the comparison is negated. */
  lemma SortedByNumero(s: seq<Afap>, order: SortOrder, lc: (string, string) -> int)
    requires Sorted(s, Numero, order, lc)
    ensures order == Asc ==> forall i, j :: 0 <= i < j < |s| ==> s[i].numeroAfap <= s[j].numeroAfap
    ensures order == Desc ==> forall i, j :: 0 <= i < j < |s| ==> s[i].numeroAfap >= s[j].numeroAfap
  {
    forall i, j | 0 <= i < j < |s|
      ensures order == Asc ==> s[i].numeroAfap <= s[j].numeroAfap
      ensures order == Desc ==> s[i].numeroAfap >= s[j].numeroAfap
    {
      assert Comparator(Numero, order, lc)(s[i], s[j]) <= 0;
    }
  }

  method Swap(a: array<Afap>, i: int, j: int)
    requires 0 <= i < a.Length && 0 <= j < a.Length
    modifies a
    ensures a[..] == old(a[..])[i := old(a[j])][j := old(a[i])]
    ensures multiset(a[..]) == multiset(old(a[..]))
  {
    a[i], a[j] := a[j], a[i];
  }

  /** The first `n + 1` elements are in order, except possibly at the
      neighbour pair ending at `j`. */
  ghost predicate InOrderExcept(s: seq<Afap>, n: int, j: int, cmp: (Afap, Afap) -> int)
    requires n < |s|
  {
    forall k :: 0 < k <= n && k != j ==> cmp(s[k - 1], s[k]) <= 0
  }

  /** Swapping the out-of-order pair at `j` moves the gap one place left. */
  lemma InsertStep(s: seq<Afap>, t: seq<Afap>, i: int, j: int, cmp: (Afap, Afap) -> int)
    requires Antisymmetric(cmp)
    requires 0 < j <= i < |s| && t == s[j - 1 := s[j]][j := s[j - 1]]
    requires InOrderExcept(s, i, j, cmp) && cmp(s[j - 1], s[j]) > 0
    requires j < i ==> cmp(s[j - 1], s[j + 1]) <= 0
    ensures InOrderExcept(t, i, j - 1, cmp)
    ensures 0 < j - 1 ==> cmp(t[j - 2], t[j]) <= 0
  {
    forall k | 0 < k <= i && k != j - 1
      ensures cmp(t[k - 1], t[k]) <= 0
    {
      if k == j {
        assert cmp(t[j - 1], t[j]) < 0;
      } else if k == j + 1 {
        assert t[k - 1] == s[j - 1] && t[k] == s[j + 1];
      } else {
        assert t[k - 1] == s[k - 1] && t[k] == s[k];
      }
    }
  }

  /** Before the pass, only the pair ending at `i` may be out of order. */
  lemma StartInsert(s: seq<Afap>, i: int, cmp: (Afap, Afap) -> int)
    requires 0 <= i < |s| && NeighboursSortedBy(s[..i], cmp)
    ensures InOrderExcept(s, i, i, cmp)
  {
    forall k | 0 < k < i
      ensures cmp(s[k - 1], s[k]) <= 0
    {
      assert s[..i][k - 1] == s[k - 1] && s[..i][k] == s[k];
    }
  }

  /** The pass stops at the front or where the pair is in order: the first
      `i + 1` elements are then in order. */
  lemma FinishInsert(s: seq<Afap>, i: int, j: int, cmp: (Afap, Afap) -> int)
    requires 0 <= j <= i < |s| && InOrderExcept(s, i, j, cmp)
    requires j == 0 || cmp(s[j - 1], s[j]) <= 0
    ensures NeighboursSortedBy(s[..i + 1], cmp)
  {
    var t := s[..i + 1];
    forall k | 0 < k < |t|
      ensures cmp(t[k - 1], t[k]) <= 0
    {
      assert t[k - 1] == s[k - 1] && t[k] == s[k];
    }
  }

  /** One pass of the sort: the element at `i` moves left past every
      neighbour the comparator puts after it, so the first `i + 1` elements
      end up in order. */
  method InsertLeft(a: array<Afap>, i: int, cmp: (Afap, Afap) -> int)
    requires Antisymmetric(cmp)
    requires 0 <= i < a.Length
    requires NeighboursSortedBy(a[..i], cmp)
    modifies a
    ensures multiset(a[..]) == multiset(old(a[..]))
    ensures NeighboursSortedBy(a[..i + 1], cmp)
  {
    var j := i;
    StartInsert(a[..], i, cmp);
    while j > 0 && cmp(a[j - 1], a[j]) > 0
      invariant 0 <= j <= i
      invariant multiset(a[..]) == multiset(old(a[..]))
      invariant InOrderExcept(a[..], i, j, cmp)
      invariant 0 < j < i ==> cmp(a[j - 1], a[j + 1]) <= 0
    {
      ghost var s := a[..];
      Swap(a, j - 1, j);
      InsertStep(s, a[..], i, j, cmp);
      j := j - 1;
    }
    FinishInsert(a[..], i, j, cmp);
  }

  /** `result.sort(cmp)`, in place, as an insertion sort. */
  method SortInPlace(a: array<Afap>, cmp: (Afap, Afap) -> int)
    requires Antisymmetric(cmp) && Transitive(cmp)
    modifies a
    ensures multiset(a[..]) == multiset(old(a[..]))
    ensures SortedBy(a[..], cmp)
  {
    var i := 0;
    while i < a.Length
      invariant 0 <= i <= a.Length
      invariant multiset(a[..]) == multiset(old(a[..]))
      invariant NeighboursSortedBy(a[..i], cmp)
    {
      InsertLeft(a, i, cmp);
      i := i + 1;
    }
    assert a[..i] == a[..];
    NeighboursSortedIsSorted(a[..], cmp);
  }

  // ---------------------------------------------------------------------------
  // Counters and sort toggle
  // ---------------------------------------------------------------------------

  datatype EstadosCounts = EstadosCounts(all: nat, pendiente: nat, inspeccion: nat, aprobado: nat, rechazado: nat)

  /** `afaps.filter(x => x.estado === e).length` */
  function CountEstado(afaps: seq<Afap>, e: string): nat
  {
    Count(afaps, EstadoIs(e))
  }

  /** The counters over the loaded list; filter, search and sort are not
      among the inputs. */
  function CountEstados(afaps: seq<Afap>): (c: EstadosCounts)
    ensures c.all == |afaps|
  {
    EstadosCounts(|afaps|, CountEstado(afaps, "pendiente"), CountEstado(afaps, "inspeccion"),
                  CountEstado(afaps, "aprobado"), CountEstado(afaps, "rechazado"))
  }

  predicate HasUnknownEstado(a: Afap)
  {
    !IsKnownEstado(a.estado)
  }

  /** Records in a state the page does not know. */
  function CountUnknown(afaps: seq<Afap>): nat
  {
    Count(afaps, HasUnknownEstado)
  }

  /** Every record is counted under exactly one of the four states or as unknown. */
  lemma {:induction false} CountsPartition(afaps: seq<Afap>)
    ensures var c := CountEstados(afaps);
      c.pendiente + c.inspeccion + c.aprobado + c.rechazado + CountUnknown(afaps) == c.all
  {
    if afaps != [] {
      CountsPartition(afaps[1..]);
    }
  }

  /** With only known states, `all` is the sum of the four counters; in any
      case the four never add up to more than `all`. */
  lemma CountsSum(afaps: seq<Afap>)
    ensures var c := CountEstados(afaps);
      c.pendiente + c.inspeccion + c.aprobado + c.rechazado <= c.all
    ensures (forall i :: 0 <= i < |afaps| ==> IsKnownEstado(afaps[i].estado)) ==>
      var c := CountEstados(afaps);
      c.pendiente + c.inspeccion + c.aprobado + c.rechazado == c.all
  {
    CountsPartition(afaps);
    if forall i :: 0 <= i < |afaps| ==> IsKnownEstado(afaps[i].estado) {
      assert Filter(afaps, HasUnknownEstado) == [] by {
        if Filter(afaps, HasUnknownEstado) != [] {
          var x := Filter(afaps, HasUnknownEstado)[0];
          FilterMembership(afaps, HasUnknownEstado, x);
        }
      }
    }
  }

  /** `estadosCounts[item.value]` for a filter button. */
  function ButtonCount(c: EstadosCounts, value: string): nat
    requires value == "all" || IsKnownEstado(value)
  {
    match value
    case "all" => c.all
    case "pendiente" => c.pendiente
    case "inspeccion" => c.inspeccion
    case "aprobado" => c.aprobado
    case _ => c.rechazado
  }

  /** The number on a filter button is how many records that filter shows
      while the search box is blank. */
  lemma ButtonCountMatchesFilter(afaps: seq<Afap>, value: string, searchQuery: string)
    requires value == "all" || IsKnownEstado(value)
    requires IsBlank(searchQuery)
    ensures ButtonCount(CountEstados(afaps), value) == |Query(afaps, value, searchQuery)|
  {
    var stage := StatusStage(afaps, value);
    SearchStageKeeps(stage, searchQuery);
    assert Query(afaps, value, searchQuery) == stage;
    if value != "all" {
      assert stage == Filter(afaps, EstadoIs(value));
      assert ButtonCount(CountEstados(afaps), value) == CountEstado(afaps, value);
    }
  }

  /** `toggleSort(column)`: the same column flips the order, another column is
      selected in descending order. */
  function NextSort(current: SortKey, order: SortOrder, column: SortKey): (r: (SortKey, SortOrder))
    ensures r.0 == column
    ensures current == column ==> r.1 != order
    ensures current != column ==> r.1 == Desc
  {
    if current == column then (current, if order == Asc then Desc else Asc) else (column, Desc)
  }

  /** Clicking the same column twice restores the order it had. */
  lemma NextSortTwice(current: SortKey, order: SortOrder, column: SortKey)
    ensures var (c, o) := NextSort(current, order, column);
      current == column ==> NextSort(c, o, column) == (current, order)
  {
  }

  // ---------------------------------------------------------------------------
  // Request card actions
  // ---------------------------------------------------------------------------

  datatype CardAction = ScheduleInspection | Approve | Reject

  /** The state and observation a card button sends to `onUpdateEstado`;
      `typed` is what the textarea holds. */
  function ActionRequest(action: CardAction, typed: string): (r: (string, string))
    ensures IsKnownEstado(r.0) && r.0 != "pendiente"
    ensures r.1 != ""
    ensures action == ScheduleInspection ==> r.0 == "inspeccion"
    ensures action == Approve ==> r.0 == "aprobado"
    ensures action == Reject ==> r.0 == "rechazado" && r.1 == (if typed == "" then "No cumple requisitos" else typed)
    ensures action != Reject ==> r.1 != "No cumple requisitos"
  {
    match action
    case ScheduleInspection => ("inspeccion", "Programada para inspección")
    case Approve => ("aprobado", "Habilitación Precaria aprobado - Cumple requisitos. Email automático enviado.")
    case Reject => ("rechazado", if typed != "" then typed else "No cumple requisitos")
  }

  /** `isInspector` as the list computes it for every card. */
  predicate IsStaff(role: Option<Role>)
  {
    role == Some(Inspector) || role == Some(Administrador)
  }

  /** The controls a request card shows. */
  datatype CardControl = CertificateButton | DetailsToggle(caption: string) | ActionButton(action: CardAction)

  /** The controls of a card, in display order: the certificate button on an
      approved request, the details toggle, and, inside the open details and
      only for staff, the three state buttons. */
  function CardButtons(a: Afap, role: Option<Role>, showActions: bool): (r: seq<CardControl>)
    ensures CertificateButton in r <==> a.estado == "aprobado"
    ensures DetailsToggle(if showActions then "Ocultar" else "Ver Detalles") in r
    ensures forall act: CardAction :: ActionButton(act) in r <==> showActions && IsStaff(role)
  {
    var certificate: seq<CardControl> := if a.estado == "aprobado" then [CertificateButton] else [];
    var toggle := [DetailsToggle(if showActions then "Ocultar" else "Ver Detalles")];
    var actions: seq<CardControl> := if showActions && IsStaff(role) then
      [ActionButton(ScheduleInspection), ActionButton(Approve), ActionButton(Reject)]
    else [];
    assert forall act: CardAction :: ActionButton(act) in actions <==> showActions && IsStaff(role) by {
      forall act: CardAction ensures ActionButton(act) in actions <==> showActions && IsStaff(role) {
        if showActions && IsStaff(role) {
          assert act == ScheduleInspection || act == Approve || act == Reject;
          assert actions[0] == ActionButton(ScheduleInspection) && actions[2] == ActionButton(Reject);
        }
      }
    }
    certificate + toggle + actions
  }

  /** A card opens closed, so nobody sees a state button before pressing
      "Ver Detalles"; a citizen never sees one. */
  lemma StateButtonsNeedStaffAndDetails(a: Afap, role: Option<Role>, showActions: bool, act: CardAction)
    ensures ActionButton(act) !in CardButtons(a, role, false)
    ensures !IsStaff(role) ==> ActionButton(act) !in CardButtons(a, role, showActions)
    ensures IsStaff(role) ==> ActionButton(act) in CardButtons(a, role, true)
  {
  }

  /** The state of one card: whether its details are open and what its
      observation box holds. */
  class AfapCard {
    var showActions: bool
    var observaciones: string

    constructor ()
      ensures !showActions && observaciones == ""
    {
      showActions, observaciones := false, "";
    }

    /** "Ver Detalles" / "Ocultar" flips the details open or closed. */
    method ToggleDetails()
      modifies this`showActions
      ensures showActions == !old(showActions)
    {
      showActions := !showActions;
    }

    /** Typing in the observation box. */
    method SetObservaciones(text: string)
      modifies this`observaciones
      ensures observaciones == text
    {
      observaciones := text;
    }

    /** Pressing a state button, which only exists while the details are
        open and the user is staff: the request sent to `onUpdateEstado`. */
    method Press(a: Afap, role: Option<Role>, action: CardAction) returns (request: (string, string))
      requires ActionButton(action) in CardButtons(a, role, showActions)
      ensures showActions && IsStaff(role)
      ensures request == ActionRequest(action, observaciones)
    {
      request := ActionRequest(action, observaciones);
    }
  }

  // ---------------------------------------------------------------------------
  // The code as written (see README, Findings)
  // ---------------------------------------------------------------------------

  /** The two filter stages as the source has them: both callbacks read the
      unbound name `afap`, so each throws as soon as `filter` calls it, which
      it does when the list it filters is non-empty. */
  function QueryAsWritten(afaps: seq<Afap>, filter: string, searchQuery: string): (r: Result<seq<Afap>, RenderError>)
    ensures r.Ok? ==> r.value == afaps
  {
    if filter != "all" && afaps != [] then Err(ReferenceError("afap"))
    else if Trim(searchQuery) != [] && afaps != [] then Err(ReferenceError("afap"))
    else Ok(afaps)
  }

  /** The stages as written agree with the intended ones only when neither
      callback runs: an empty list, or filter 'all' with a blank query. */
  lemma QueryAsWrittenAgreement(afaps: seq<Afap>, filter: string, searchQuery: string)
    ensures QueryAsWritten(afaps, filter, searchQuery).Ok? <==>
      afaps == [] || (filter == "all" && IsBlank(searchQuery))
    ensures QueryAsWritten(afaps, filter, searchQuery).Ok? ==>
      QueryAsWritten(afaps, filter, searchQuery) == Ok(Query(afaps, filter, searchQuery))
  {
    TrimEmptyIffBlank(searchQuery);
    if afaps == [] {
      SearchStageKeeps(StatusStage(afaps, filter), searchQuery);
      assert StatusStage(afaps, filter) == [];
    }
  }

  /** One pending request and the filter "pendiente": the page throws, where
      the intended filter shows that request. */
  lemma QueryAsWrittenThrows(a: Afap)
    requires a.estado == "pendiente"
    ensures QueryAsWritten([a], "pendiente", "") == Err(ReferenceError("afap"))
    ensures Query([a], "pendiente", "") == [a]
  {
    assert Filter([a], EstadoIs("pendiente")) == [a] by {
      assert [a][1..] == [];
    }
    assert Trim("") == [];
  }

  /** The props an `AFAPCard` receives, by name. */
  type CardProps = map<string, Afap>

  /** The call site passes the request as `habilitacion_precaria={afap}`. */
  function CardPropsAsWritten(a: Afap): CardProps
  {
    map["habilitacion_precaria" := a]
  }

  /** The request passed under the name the card destructures. */
  function CardPropsIntended(a: Afap): CardProps
  {
    map["afap" := a]
  }

  /** `AFAPCard({ afap, ... })` reads `afap.numero_afap` first thing, which
      throws when no prop of that name was passed. */
  function CardSubject(props: CardProps): (r: Result<Afap, RenderError>)
    ensures r.Ok? <==> "afap" in props
  {
    if "afap" in props then Ok(props["afap"]) else Err(TypeError("numero_afap"))
  }

  /** As written, every card fails to render; with the intended prop name it
      shows its own request. */
  lemma CardSubjectOfProps(a: Afap)
    ensures CardSubject(CardPropsAsWritten(a)).Err?
    ensures CardSubject(CardPropsIntended(a)) == Ok(a)
  {
  }

  // ---------------------------------------------------------------------------
  // Page state
  // ---------------------------------------------------------------------------

  class SolicitudesPage {
    var afaps: seq<Afap>
    var loading: bool
    var filter: string
    var searchQuery: string
    var sortBy: SortKey
    var sortOrder: SortOrder

    constructor ()
      ensures afaps == [] && loading && filter == "all" && searchQuery == ""
      ensures sortBy == Fecha && sortOrder == Desc
    {
      afaps, loading, filter, searchQuery := [], true, "all", "";
      sortBy, sortOrder := Fecha, Desc;
    }

    /** `loadAfaps`: the response of `GET /afap` replaces the list; a failed
        request leaves it as it was and raises an error notification.
        Loading ends either way. */
    method LoadAfaps(response: Result<seq<Afap>, string>) returns (toast: Toast)
      modifies this`afaps, this`loading
      ensures afaps == (if response.Ok? then response.value else old(afaps))
      ensures toast == (if response.Ok? then NoToast else ErrorToast("Error al cargar las solicitudes"))
      ensures !loading
    {
      toast := NoToast;
      if response.Ok? {
        afaps := response.value;
      } else {
        toast := ErrorToast("Error al cargar las solicitudes");
      }
      loading := false;
    }

    /** A filter button sets the status filter. */
    method SetFilter(value: string)
      requires value == "all" || IsKnownEstado(value)
      modifies this`filter
      ensures filter == value
    {
      filter := value;
    }

    /** Typing in the search box, or clearing it with its button (`""`). */
    method SetSearchQuery(text: string)
      modifies this`searchQuery
      ensures searchQuery == text
    {
      searchQuery := text;
    }

    method ToggleSort(column: SortKey)
      modifies this`sortBy, this`sortOrder
      ensures (sortBy, sortOrder) == NextSort(old(sortBy), old(sortOrder), column)
    {
      if sortBy == column {
        sortOrder := if sortOrder == Asc then Desc else Asc;
      } else {
        sortBy := column;
        sortOrder := Desc;
      }
    }

    /** `filteredAndSortedAfaps`: both filter stages, then a sort of a fresh
        array, so the loaded list itself is never reordered (the method
        changes no field). The result is the filtered records, all of them
        and nothing else, in comparator order. */
    method FilteredAndSorted(lc: (string, string) -> int) returns (result: seq<Afap>)
      requires IsLocaleOrder(lc)
      ensures multiset(result) == multiset(Query(afaps, filter, searchQuery))
      ensures Sorted(result, sortBy, sortOrder, lc)
      ensures |result| <= |afaps|
    {
      var stage := StatusStage(afaps, filter);
      stage := SearchStage(stage, searchQuery);
      var copy := new Afap[|stage|](k requires 0 <= k < |stage| => stage[k]);
      assert copy[..] == stage;
      ComparatorIsConsistent(sortBy, sortOrder, lc);
      SortInPlace(copy, Comparator(sortBy, sortOrder, lc));
      result := copy[..];
      QueryIsSubsequence(afaps, filter, searchQuery);
      assert |result| == |multiset(result)| == |stage|;
    }
  }
}
